=== FILE: README.md ===
# Backend-School route handlers in Dafny

Backend-School is an Express and MySQL backend for a school. Admins register
logins, admit students, toggle their enrollment status, promote whole classes
to the next academic year, assign fees and record payments. Teachers mark attendance and enter
marks. Students read their current enrollment, a month's attendance and their
fee balance. All of this sits behind a bearer-token middleware and per-role
guards. Most replies go through the `createResult` envelope. The status
toggle and the promotion handler build their replies by hand with `res.json`.

This project models those handlers as pure functions. A handler maps a school
state, its request fields and its outside oracles to a new state and a
reply. The state holds one sequence per table, in storage order, plus the
next AUTO_INCREMENT value of the users, student_master, student_enrollments,
exams and fee-assignment keys. The rows of the other tables carry no id of
their own: attendance records, payments, and the `employees` and `students`
rows, which are keyed by their login's `user_id`.

Some values come from outside the database and are function parameters:
- bcrypt's `hash` and `compare`;
- jsonwebtoken's `sign` and `verify`;
- the server's clock (`CURDATE()`).

Store failures come from a `Fault` value. It names the statement at which a
request's database call fails, if any. The first failing statement ends every
handler, so one failure point per request covers every run.

Files, one module each:
- `base.dfy`: `Option`, `Date`, the `Fault` oracle and JavaScript truthiness of request fields.
- `envelope.dfy`: `createResult`.
- `schema.dfy`: the tables, the `School` state and the replies.
- `tables.dfy`: the generic queries (first match, WHERE filter, delete-then-insert replacement) and their lemmas.
- `token.dfy`: the token middleware, `split(' ')` and the role guard.
- `auth.dfy`: registration and sign-in.
- `admin.dfy`: the admin guard, status toggle, bulk promotion, admission, fee assignment and payment recording.
- `teacher.dfy`: the grade classifier, attendance marking and marks entry.
- `student.dfy`: the current enrollment snapshot, attendance summary and fee summary.
- `server.dfy`: the route pipeline and the lemmas that span handlers.

Some behaviour of the code is easy to miss. The model keeps it as written:
- At level 10, promotion answers an error and marks nobody 'passed' (routes/admin.js:328-333).
- Promoted copies get roll numbers 1..n in row order (routes/admin.js:385).
- Promotion sets every row of the source class to 'passed' (routes/admin.js:403-410).
- The toggle answers success even when no row matched (routes/admin.js:280-291).
- Nothing in routes/admin.js:301-424 checks whether a class was already promoted, or whether a student already has an enrollment in the destination year.
- Single-student fee assignment is a plain INSERT (routes/admin.js:634-637), so a second assignment adds a second row.

## Model

| member | source | states |
|---|---|---|
| Envelope.CreateResult | utils/result.js:1-23 | A truthy `err` gives an error envelope whatever `data` is. Otherwise `affectedRows === 0` gives 'Operation failed', and anything else returns `data` unchanged as success. The error iff is stated both ways. |
| Envelope.ErrorOf | utils/result.js:2-7 | The error field is `err.message \|\| err`: a string is kept, an error object gives its message, or the object itself when that message is empty. |
| Envelope.MessageErrorIgnoresData | utils/result.js:2-7 | A non-empty message error is reported verbatim, independent of `data`. |
| Envelope.EmptyMessageIsNoError | utils/result.js:2-22 | An empty string as `err` is falsy and takes the data path. |
| Token.Split | routes/verifyToken.js:12 | `split(' ')` yields at least one field, and no field contains a space. |
| Token.JoinSplit | routes/verifyToken.js:12 | Joining the fields of a split with single spaces gives the header back. |
| Token.SplitJoin | routes/verifyToken.js:12 | Space-free fields survive a join followed by a split. |
| Token.SplitWordPrefix | routes/verifyToken.js:12 | A space-free word at the front of a header glues onto its first field. |
| Token.SecondField | routes/verifyToken.js:12 | `split(' ')[1]` exists iff the header has at least two fields, and it is space-free. |
| Token.VerifyToken | routes/verifyToken.js:4-31 | A missing header gives 'Token required'. A missing or empty second field gives 'Invalid token format'. A rejected token gives 'Invalid or expired token'. Otherwise, and only then, the request passes with `req.user` taken from the claims. |
| Token.SchemeWordIgnored | routes/verifyToken.js:11-16 | The first word is never checked: any space-free word gives the same outcome as "Bearer". |
| Token.BearerHeaderPasses | routes/verifyToken.js:12-29 | "Bearer <t>" with an accepted token passes as the user in its claims. |
| Token.SchemeAloneRejected | routes/verifyToken.js:12-16 | "Bearer" alone is 'Invalid token format'. |
| Token.DoubleSpaceRejected | routes/verifyToken.js:12-16 | "Bearer  x" (two spaces) is 'Invalid token format'. |
| Token.RequireRole | routes/teacher.js:10-16 | A caller passes iff the role matches. Any other role gets `createResult(denial)` with HTTP 200. |
| Auth.AdminOnly | routes/Auth.js:12-19 | Registration proceeds iff the role is 'admin'. Otherwise it answers 'Access denied: Admin only'. |
| Auth.Register | routes/Auth.js:24-114 | A non-admin caller or a missing fname, reg_no, role or date writes nothing. A failure at any statement of the transaction rolls back. Success happens iff none of these occurs. It adds one users row (username reg_no, password hash(reg_no), status active) plus a students row when the role is 'student' and an employees row otherwise. Nothing else changes. It answers 'Student registered successfully' or 'Employee registered successfully' by role. The guard, missing-field and store-failure replies are exact 200 envelopes. |
| Auth.SignIn | routes/Auth.js:119-171 | A failed lookup, no active login with that username or a wrong password gives 401 'Invalid credentials'. A bcrypt error is answered with HTTP 200 and that error. Success happens iff bcrypt matches the first active login. It answers the token signed from exactly `{user_id, role}` of that login, plus its role. |
| Auth.FirstActiveUserAppend | routes/Auth.js:125-131 | A new active login is the match for its name when no active login had that name, and it changes the match for no other name. |
| Auth.RegisteredUserCanSignIn | routes/Auth.js:24-171 | A freshly registered login signs in with reg_no as username and password. Its token carries the new id and role. |
| Auth.SignInTokenAuthenticates | routes/Auth.js:152-168 | With a JWT oracle that decodes what it signs, the sign-in token passes the middleware as the signed-in login. |
| Admin.AdminOnly | routes/admin.js:10-22 | No user gives 401 'Unauthorized' and a non-admin gives 403 'Admin only'. The request proceeds iff the role is 'admin'. |
| Admin.ToggleStatus | routes/admin.js:259-293 | A store error gives HTTP 500 with its message, and success otherwise, even when no row matched. Only the addressed enrollment's status changes: 'active' becomes 'left', and everything else becomes 'active'. |
| Admin.ToggleTwice | routes/admin.js:266-276 | Toggling twice restores a row iff it was 'active' or 'left'. |
| Admin.NextOpenYear | routes/admin.js:336-352 | None iff no open year comes after the source year. Otherwise it is an open later year, and no open later year is smaller. |
| Admin.Promote | routes/admin.js:301-424 | A missing class or a failed class lookup gives 400 'Invalid class'. Level 10 gives 400 'Class 10 students are passed out'. A failed year lookup or no later open year gives 400 'Next academic year not found'. A failed or empty level+1 class lookup gives 400 'Next class not found'. A failed insert gives 500 with the driver's message. Every failure writes nothing. Success iff all three lookups resolve and the insert succeeds. It answers level+1 and performs the cohort's writes on the resolved classes. |
| Admin.PromoteCohort | routes/admin.js:377-410 | The `INSERT ... SELECT` of the active cohort followed by the 'passed' UPDATE. Only the enrollments table and its counter change, and the table grows by the size of the active cohort. |
| Admin.PromoteCohortExisting | routes/admin.js:403-410 | Existing rows outside the source class are unchanged. Every existing row of the source class, active or not, becomes 'passed'. |
| Admin.PromoteCohortAdded | routes/admin.js:377-393 | One new row per active source row, in row order. It keeps the same student and login, takes the destination's year and class and today's date, with roll number j+1 and fresh ids. |
| Admin.PromoteCohortClearsSource | routes/admin.js:403-410 | After the update no row of the source class is anything but 'passed'. |
| Admin.DestinationIsNextLevel | routes/admin.js:336-374 | The destination is a class of the school, one level up, in a later year, and no open year lies in between. |
| Admin.PromoteCohortPlaces | routes/admin.js:355-393 | The cohort's writes keep every enrollment in a class of its own year. |
| Admin.PromotePreservesPlacement | routes/admin.js:355-393 | Promotion preserves the invariant that each enrollment's class belongs to its year. |
| Admin.PromoteCohortIdle | routes/admin.js:377-410 | With no active row left and every source row 'passed', the writes change nothing. |
| Admin.PromoteTwiceChangesNothing | routes/admin.js:377-410 | Promoting the same class again inserts nothing, changes nothing and gives the same answer. |
| Admin.PromotionCanDuplicateYearEnrollment | routes/admin.js:377-393 | A student already enrolled in the destination year is copied there again as a second active enrollment. |
| Admin.AddStudent | routes/admin.js:796-884 | Any of the seven fields missing (0 counts as missing) gives 'Missing required fields' with no write. A failure at any statement of the transaction is rolled back and answered with that error, with HTTP 200. Success adds exactly one master row and one enrollment pointing at it, with no login. |
| Admin.AdmissionCanMisplace | routes/admin.js:846-856 | Admission does not check that the class belongs to the year, so it can break the placement invariant. |
| Admin.AssignFee | routes/admin.js:629-641 | A failed insert is answered with its error, with HTTP 200, and writes nothing. Success iff admin and the insert succeeds. It answers 'Fee assigned'. It appends one assignment with today's date, and the existing rows stay. |
| Admin.RecordPayment | routes/admin.js:666-684 | A non-admin is refused and a failed insert reports the driver's error, both with no write. Success iff admin and the insert succeeds. It appends exactly one payment row and answers 'Payment recorded'. |
| Teacher.TeacherOnly | routes/teacher.js:10-16 | Proceeds iff the role is 'teacher'. Otherwise it answers 'Access denied: Teacher only'. |
| Teacher.CalculateGrade | routes/teacher.js:261-269 | The grade is the one whose band [floor, ceiling) holds the percentage: A+ from 90, A from 80, B from 70, C from 60, D from 40, F below. |
| Teacher.GradeMonotone | routes/teacher.js:261-269 | For a positive maximum, more marks never give a lower grade. |
| Teacher.GradeBandUnique | routes/teacher.js:261-269 | Any grade whose band holds the percentage is the one returned. |
| Teacher.AttendanceRows | routes/teacher.js:176-179 | Row i carries entry i's enrollment id and status and the submitted date. |
| Teacher.MarkAttendance | routes/teacher.js:156-188 | A missing date or a missing or empty list gives 'Invalid data' with no write. A failed DELETE is answered with its error and writes nothing. A failed INSERT is answered with its error. Success iff both statements succeed and answers 'Attendance marked successfully'. It replaces that date's records of the listed enrollments by one record per entry. A failed insert leaves the deletion. Only attendance changes. |
| Teacher.MarkAttendanceScope | routes/teacher.js:166-184 | Afterwards the listed enrollments' records on that date are exactly the submitted ones, and all other records are as before. |
| Teacher.RemarkingIsIdempotent | routes/teacher.js:166-184 | Submitting the same attendance twice leaves the table as one submission does, up to the row ids. |
| Teacher.ExamFor | routes/teacher.js:232-257 | An exam with that name in the subject's year is reused. Otherwise one exam is created in that year with the next id. When the subject is missing, nothing is created and id 0 is used. |
| Teacher.MarkRows | routes/teacher.js:271-278 | Row i carries entry i's enrollment id and marks, the subject and exam, the common maximum and `calculateGrade(obtained, max)`. |
| Teacher.AddMarks | routes/teacher.js:221-302 | A missing subject or exam name, a falsy maximum or an empty list gives 'Invalid data' with no write. A failed exam lookup writes nothing. Past it, the exam is found or created and stays, whatever follows. A failed DELETE writes nothing more. A failed INSERT keeps the deletion of the listed enrollments' marks for that subject and exam. On success those marks are replaced by graded rows, and the answer is 'Marks added successfully'. Only exams, marks and the exam counter change. |
| Teacher.ReenteringMarksIsIdempotent | routes/teacher.js:232-296 | Re-entering the same marks reuses the exam and changes nothing. |
| Tables.ReplaceIdempotent | routes/teacher.js:166-184 | Repeating a delete-then-insert whose rows all fall under the delete changes nothing. |
| Tables.ReplaceKeepsOthers | routes/teacher.js:166-184 | Rows whose key is not deleted are exactly those of the old table. |
| Student.StudentOnly | routes/student.js:10-16 | Proceeds iff the role is 'student'. Otherwise it answers 'Access denied: Student only'. |
| Student.CurrentRow | routes/student.js:24-42 | The first enrollment with the caller's user_id in an active year and an existing class. It is None iff there is none. |
| Student.CurrentEnrollment | routes/student.js:21-49 | A store error is reported. With no row the answer is `createResult('No active enrollment found')` with HTTP 200. Otherwise it is the snapshot of the caller's own row and its class level. |
| Student.CurrentEnrollmentIgnoresStatus | routes/student.js:36-42 | Toggling any enrollment's status leaves every student's snapshot unchanged. |
| Student.LoginlessRowInvisible | routes/student.js:40 | An enrollment without a login never becomes anyone's snapshot row. |
| Student.AdmissionInvisibleToStudents | routes/student.js:36-42 | An admission leaves every student's snapshot unchanged. |
| Student.InsertKeepsOrder | routes/student.js:230 | Inserting a record keeps a date-ordered list ordered. |
| Student.SortByDate | routes/student.js:230 | `ORDER BY attendance_date` is a date-ordered permutation of the rows. |
| Student.FilterCountsPresent | routes/student.js:236 | `filter(status === 'Present').length` counts exactly the 'Present' records. |
| Student.AttendanceSummary | routes/student.js:219-245 | Records are a date-ordered permutation of that enrollment's records in that month and year. total = count, present = number of 'Present', present + absent = total, and present ≤ total. |
| Student.SummaryRecordsAreTheMonths | routes/student.js:224-231 | A record is reported iff it belongs to that enrollment, month and year. |
| Student.MarkedDayIsReported | routes/student.js:224-231 | After a teacher marks a day, each submitted entry appears in that enrollment's summary for the month. |
| Student.PaidForAppend | routes/student.js:258 | A payment adds its amount to its own enrollment's paid sum only. |
| Student.FeeSummary | routes/student.js:250-275 | With no assignment the summary is all zeros. Otherwise total is the first assignment's total, paid is the sum of that enrollment's payments, and due = total − paid. |
| Student.PaymentLowersDue | routes/student.js:257-259 | A payment for the enrollment raises paid and lowers due by its amount. A payment for another enrollment changes neither. |
| Student.RecordedPaymentIsReported | routes/student.js:250-275 | After the admin records a payment for an assigned enrollment, its paid sum rises and its due falls by the amount. Every other enrollment's summary is unchanged. |
| Student.AssignedFeeIsReported | routes/student.js:255-273 | After a first fee assignment the summary shows its total and total minus what was paid. |
| Student.ReassignmentIsIgnored | routes/student.js:261-264 | A second assignment to the same enrollment does not change the summary. |
| Server.Serve | server.js:30-40 | Sign-in and a request the middleware refuses never write. Only sign-in is answered without a token. Every other request gets the middleware's refusal unless its header verifies, and then reaches its handler as the token's user. |
| Server.Route | server.js:37-40 | The handler behind the middleware. The read routes never change the state. |
| Server.AdminRoutesNeedAdmin | routes/admin.js:10-22 | Every admin route changes the state only for an 'admin' caller. |
| Server.TeacherRoutesNeedTeacher | routes/teacher.js:10-16 | Every teacher route changes the state only for a 'teacher' caller. |
| Server.NoTokenNoWrite | routes/verifyToken.js:7-9 | Without a header every protected request answers 'Token required' and writes nothing. |
| Server.RouteWritesNeedTheRole | server.js:37-40 | Behind the middleware a handler changes the state only for the role its route demands. |
| Server.WritesNeedTheRole | server.js:35-40 | A request changes the state only with a verified token carrying the route's role. Sign-in and reads never write. |
| Server.StudentsNeverWrite | server.js:35-40 | A student's token changes nothing, whatever the request. |
| Server.SignedInCallerReachesHandler | server.js:30-35 | The token from sign-in takes its holder through the middleware to the handler as that login. |

## Left out

- bcrypt and jsonwebtoken: hashing, comparison, signing and verification are oracles. Token expiry (`expiresIn: '1d'`) is part of the `verify` oracle.
- The connection pool, environment configuration and server start-up (utils/db.js, server.js listen, cors, JSON parsing), and the admin-reset script adminreg.js: no rules beyond wiring.
- server.js requires './routes/auth' while the file is routes/Auth.js. On a case-sensitive file system this fails at start-up. The model assumes the router loads.
- Report and dashboard queries (principal, subject, user, accountant routes and the admin report routes): only query text, no rules.
- The commented-out code: routes/class.js, routes/admin.js:934-1898 and routes/accountant.js:162-434.
- Admin.RecordPayment: only the enrollment id and amount are kept. The payment date, mode and receipt number are stored but never read by the modelled handlers. A missing field (inserted as NULL) is not modelled.
- The second `PUT /student/toggle-status` at routes/admin.js:910-928: Express never reaches it because the first handler answers without calling `next`.
- Teacher.CalculateGrade: compares the exact rational percentage instead of JavaScript float division. Rounding at a band edge is not covered, and neither are non-numeric marks.
- Teacher.ExamFor: the exam-creation callback names its result `result`, which shadows the envelope module. A failed exam INSERT would crash the handler instead of answering. Only the successful creation is modelled.
- Teacher.AddMarks and Teacher.MarkAttendance: the DELETE and INSERT run as two separate statements, without a transaction or concurrency. They are modelled in sequence.
- Admin.Promote: the 'passed' UPDATE is not awaited, and its failure is ignored. It is modelled as running right after the insert, or not at all.
- `attendance_students.attendance_id` and `fee_payments.payment_id`: the handlers never write them and only report queries read them (routes/teacher.js:199, routes/student.js:287). A repeated attendance submission gives the re-inserted rows new ids in MySQL, so Teacher.RemarkingIsIdempotent holds on the other columns only.
- Auto-increment gaps: a rolled-back insert leaves the counters as they were, whereas MySQL would skip the consumed ids.
- SQL collation: string comparisons (usernames, exam names) are exact. MySQL's default collation is case- and trailing-space-insensitive.
- Student.CurrentEnrollment: the snapshot omits the year name, division and class teacher name, which are display columns.
- `users.status` and `student_enrollments.status` are assumed to default to 'active'. Every INSERT into those tables (routes/Auth.js:36-37, routes/admin.js:379-380 and 847-848) leaves the column out, and the database schema is not part of this model. Auth.RegisteredUserCanSignIn, Admin.PromoteCohortAdded and Admin.PromotionCanDuplicateYearEnrollment rely on this default.
- Admin.AssignFee: enrollment id and amount are integers. A missing field (inserted as NULL) is not modelled.
- Query parameters arrive as strings and MySQL converts them. The model takes them as integers, and a missing one matches nothing.
- Request-body fields arrive as untyped JSON. The model takes body dates as `Option<Date>` and body numbers as `Option<int>`, and the handlers' truthiness checks work on those types. An empty-string date (rejected), a string "0" (truthy, so accepted) or a malformed date string (passed on to MySQL) cannot be expressed.
- bcrypt's `hash` and jsonwebtoken's `sign` are taken as functions of their input. The real outputs vary with the bcrypt salt and the JWT `iat`. No property here depends on that: sign-in is stated through `compare`, and the middleware through `verify` returning the signed `user_id` and `role`.
- Table order: queries without ORDER BY (the first active login, `data[0]` of the snapshot, the first fee assignment, and the rows the promotion's `INSERT ... SELECT` copies at routes/admin.js:377-393) return rows in storage order, which MySQL does not promise. The promotion's roll numbers 1..n follow that order.
- Student.AttendanceSummary: the reported records keep their enrollment id, which the query does not select (routes/student.js:224-231). It is the queried enrollment id in every record, so it adds no information.

=== FILE: admin.dfy ===
/** routes/admin.js: the admin guard, the enrollment status toggle, bulk
    promotion of a class to the next academic year, transactional student
    admission, single-student fee assignment and payment recording. */
module Admin {
  import opened Base
  import opened Envelope
  import opened Schema
  import opened Token
  import opened Tables

  /** The guard of this file: no `req.user` is 401 'Unauthorized', any role
      but 'admin' is 403 'Admin only'. */
  function AdminOnly(user: Option<ReqUser>): (r: Option<Reply>)
    ensures user.None? ==> r == Some(Refuse(401, Text("Unauthorized")))
    ensures user.Some? && user.value.role != "admin" ==> r == Some(Refuse(403, Text("Admin only")))
    ensures r.None? <==> user.Some? && user.value.role == "admin"
  {
    if user.None? then Some(Refuse(401, Text("Unauthorized")))
    else if user.value.role != "admin" then Some(Refuse(403, Text("Admin only")))
    else None
  }

  // PUT /student/toggle-status (the first handler registered for the path)

  const TOGGLE_UPDATE: nat := 0

  /** `CASE WHEN status = 'active' THEN 'left' ELSE 'active' END` */
  function Toggled(st: EnrollmentStatus): EnrollmentStatus
  {
    if st == Active then Left else Active
  }

  /** `UPDATE ... WHERE enrollment_id = ?`; a NULL id matches no row. */
  function ToggleRows(es: seq<Enrollment>, id: Option<int>): seq<Enrollment>
  {
    seq(|es|, i requires 0 <= i < |es| =>
      if id.Some? && es[i].enrollmentId == id.value then es[i].(status := Toggled(es[i].status)) else es[i])
  }

  /** The handler answers by hand: a store error is HTTP 500 with a
      `message`, anything else is success, even when no row matched. */
  function ToggleStatus(s: School, caller: Option<ReqUser>, enrollmentId: Option<int>, fault: Fault)
    : (r: (School, Reply))
    ensures AdminOnly(caller).Some? ==> r == (s, AdminOnly(caller).value)
    ensures (AdminOnly(caller).None? && FailureAt(fault, TOGGLE_UPDATE).Some?)
              ==> r == (s, Reply(500, MessageError(fault.error.message)))
    ensures Succeeded(r.1) <==> AdminOnly(caller).None? && FailureAt(fault, TOGGLE_UPDATE).None?
    ensures Succeeded(r.1) ==> PayloadOf(r.1) == Message("Student status updated")
    // only the status of the addressed enrollment changes, and only that table
    ensures r.0 == s.(enrollments := r.0.enrollments)
    ensures |r.0.enrollments| == |s.enrollments|
    ensures forall i :: 0 <= i < |s.enrollments| ==>
              r.0.enrollments[i] == s.enrollments[i].(status := r.0.enrollments[i].status)
    ensures forall i :: 0 <= i < |s.enrollments| && r.0.enrollments[i] != s.enrollments[i] ==>
              Succeeded(r.1) && enrollmentId == Some(s.enrollments[i].enrollmentId)
    ensures Succeeded(r.1) ==> forall i :: 0 <= i < |s.enrollments| && enrollmentId == Some(s.enrollments[i].enrollmentId) ==>
              (s.enrollments[i].status == Active <==> r.0.enrollments[i].status == Left)
              && (s.enrollments[i].status != Active <==> r.0.enrollments[i].status == Active)
  {
    match AdminOnly(caller)
    case Some(denied) => (s, denied)
    case None =>
      match FailureAt(fault, TOGGLE_UPDATE)
      case Some(e) => (s, Reply(500, MessageError(e.message)))
      case None => (s.(enrollments := ToggleRows(s.enrollments, enrollmentId)), Answer(Message("Student status updated")))
  }

  /** Toggling twice restores an enrollment exactly when it was 'active' or
      'left'; 'inactive' and 'passed' come back as 'left'. */
  lemma ToggleTwice(s: School, caller: Option<ReqUser>, id: int)
    requires AdminOnly(caller).None?
    ensures var s2 := ToggleStatus(ToggleStatus(s, caller, Some(id), NoFault).0, caller, Some(id), NoFault).0;
            forall i :: 0 <= i < |s.enrollments| ==>
              (s2.enrollments[i] == s.enrollments[i]
               <==> s.enrollments[i].enrollmentId != id || s.enrollments[i].status in {Active, Left})
  {
  }

  // POST /students/promote

  const FIND_CLASS: nat := 0
  const FIND_YEAR: nat := 1
  const FIND_NEXT_CLASS: nat := 2
  const INSERT_COHORT: nat := 3
  const MARK_PASSED: nat := 4

  /** The level whose students leave the school instead of moving up. */
  const TERMINAL_LEVEL: int := 10

  /** `SELECT class_level, academic_year_id FROM classes WHERE class_id = ?` */
  function FindClass(classes: seq<Class>, id: Option<int>): Option<Class>
  {
    if id.None? then None else First(classes, (c: Class) => c.classId == id.value)
  }

  /** A year the promotion may move into from year `from`. */
  predicate OpenAfter(y: AcademicYear, from: int)
  {
    y.yearId > from && !y.isClosed
  }

  /** `SELECT academic_year_id ... WHERE academic_year_id > ? AND is_closed = FALSE
      ORDER BY academic_year_id LIMIT 1`: the least open year id after `from`. */
  function NextOpenYear(years: seq<AcademicYear>, from: int): (r: Option<int>)
    ensures r.None? <==> forall i :: 0 <= i < |years| ==> !OpenAfter(years[i], from)
    ensures r.Some? ==> exists i :: 0 <= i < |years| && OpenAfter(years[i], from) && years[i].yearId == r.value
    ensures r.Some? ==> forall i :: 0 <= i < |years| && OpenAfter(years[i], from) ==> r.value <= years[i].yearId
    decreases |years|
  {
    if |years| == 0 then None
    else
      var rest := NextOpenYear(years[1..], from);
      assert forall i :: 1 <= i < |years| ==> years[i] == years[1..][i - 1];
      if !OpenAfter(years[0], from) then rest
      else if rest.Some? && rest.value < years[0].yearId then rest
      else Some(years[0].yearId)
  }

  /** `SELECT class_id FROM classes WHERE academic_year_id = ? AND class_level = ?`, first row. */
  function FindClassAt(classes: seq<Class>, yearId: int, level: int): Option<Class>
  {
    First(classes, (c: Class) => c.yearId == yearId && c.level == level)
  }

  /** The rows `INSERT ... SELECT ... WHERE se.class_id = ? AND se.status = 'active'` copies. */
  function ActiveCohort(es: seq<Enrollment>, classId: int): seq<Enrollment>
  {
    Filter(es, (e: Enrollment) => e.classId == classId && e.status == Active)
  }

  /** The copies of the cohort in the destination: same student and login,
      destination year and class, today's date, roll numbers 1..n in row
      order (`@r := @r + 1`), fresh ids, and the default status. */
  function Advance(cohort: seq<Enrollment>, toYear: int, toClass: int, today: Date, firstId: int): seq<Enrollment>
  {
    seq(|cohort|, i requires 0 <= i < |cohort| =>
      Enrollment(firstId + i, cohort[i].masterId, toYear, toClass, i + 1, today, cohort[i].userId, Active))
  }

  /** `UPDATE student_enrollments SET status = 'passed' WHERE class_id = ?` */
  function MarkPassed(es: seq<Enrollment>, classId: int): seq<Enrollment>
  {
    seq(|es|, i requires 0 <= i < |es| => if es[i].classId == classId then es[i].(status := Passed) else es[i])
  }

  /** The three lookups of a promotion all succeed. */
  predicate Resolvable(s: School, classId: Option<int>, fault: Fault)
  {
    var src := FindClass(s.classes, classId);
    && FailureUpTo3(fault)
    && src.Some? && src.value.level != TERMINAL_LEVEL
    && NextOpenYear(s.years, src.value.yearId).Some?
    && FindClassAt(s.classes, NextOpenYear(s.years, src.value.yearId).value, src.value.level + 1).Some?
  }

  /** None of the three lookups fails in the store. */
  predicate FailureUpTo3(fault: Fault)
  {
    FailureAt(fault, FIND_CLASS).None? && FailureAt(fault, FIND_YEAR).None? && FailureAt(fault, FIND_NEXT_CLASS).None?
  }

  /** The class, year and destination a resolvable promotion works with. */
  function Source(s: School, classId: Option<int>, fault: Fault): Class
    requires Resolvable(s, classId, fault)
  {
    FindClass(s.classes, classId).value
  }

  function Destination(s: School, classId: Option<int>, fault: Fault): Class
    requires Resolvable(s, classId, fault)
  {
    var src := Source(s, classId, fault);
    FindClassAt(s.classes, NextOpenYear(s.years, src.yearId).value, src.level + 1).value
  }

  /** The writes of a promotion that got past its lookups: the insert of the
      cohort's copies, then (when `marked`) the 'passed' update of every row
      of the source class, new rows included. Only the enrollment table and
      its id counter change, and the table grows by exactly the size of the
      active cohort. */
  function PromoteCohort(s: School, src: Class, dest: Class, today: Date, marked: bool): (s': School)
    ensures var cohort := ActiveCohort(s.enrollments, src.classId);
            && s' == s.(enrollments := s'.enrollments, next := s.next.(enrollment := s.next.enrollment + |cohort|))
            && |s'.enrollments| == |s.enrollments| + |cohort|
  {
    var cohort := ActiveCohort(s.enrollments, src.classId);
    var inserted := s.enrollments + Advance(cohort, dest.yearId, dest.classId, today, s.next.enrollment);
    var es := if marked then MarkPassed(inserted, src.classId) else inserted;
    s.(enrollments := es, next := s.next.(enrollment := s.next.enrollment + |cohort|))
  }

  /** Existing rows outside the source class are untouched; every existing
      row of the source class, active or not, becomes 'passed'. */
  lemma PromoteCohortExisting(s: School, src: Class, dest: Class, today: Date, marked: bool)
    ensures var s' := PromoteCohort(s, src, dest, today, marked);
            forall i :: 0 <= i < |s.enrollments| ==>
              && |s.enrollments| <= |s'.enrollments|
              && (s.enrollments[i].classId != src.classId ==> s'.enrollments[i] == s.enrollments[i])
              && (s.enrollments[i].classId == src.classId ==>
                    s'.enrollments[i] == s.enrollments[i].(status := if marked then Passed else s.enrollments[i].status))
  {
    var cohort := ActiveCohort(s.enrollments, src.classId);
    var inserted := s.enrollments + Advance(cohort, dest.yearId, dest.classId, today, s.next.enrollment);
    assert forall i :: 0 <= i < |s.enrollments| ==> inserted[i] == s.enrollments[i];
  }

  /** Row `e` is the `j`-th copy of cohort row `from`: same student and
      login, the destination's year and class, today's date, roll number
      j+1, the j-th fresh id. */
  predicate CopyOf(e: Enrollment, from: Enrollment, j: int, dest: Class, today: Date, firstId: int)
  {
    && e.enrollmentId == firstId + j
    && e.masterId == from.masterId && e.userId == from.userId
    && e.yearId == dest.yearId && e.classId == dest.classId
    && e.rollNo == j + 1 && e.admissionDate == today
  }

  /** One new row per active source row, in row order, numbered 1..n, with
      status 'active' unless the 'passed' update reached it (possible only
      if the destination shares the source's class id). */
  lemma PromoteCohortAdded(s: School, src: Class, dest: Class, today: Date, marked: bool)
    ensures var s' := PromoteCohort(s, src, dest, today, marked);
            var cohort := ActiveCohort(s.enrollments, src.classId);
            |s'.enrollments| == |s.enrollments| + |cohort| &&
            forall j :: 0 <= j < |cohort| ==>
              && CopyOf(s'.enrollments[|s.enrollments| + j], cohort[j], j, dest, today, s.next.enrollment)
              && (s'.enrollments[|s.enrollments| + j].status == Active || (marked && dest.classId == src.classId))
  {
    var s' := PromoteCohort(s, src, dest, today, marked);
    var cohort := ActiveCohort(s.enrollments, src.classId);
    var added := Advance(cohort, dest.yearId, dest.classId, today, s.next.enrollment);
    var inserted := s.enrollments + added;
    var n := |s.enrollments|;
    forall j | 0 <= j < |cohort|
      ensures CopyOf(s'.enrollments[n + j], cohort[j], j, dest, today, s.next.enrollment)
      ensures s'.enrollments[n + j].status == Active || (marked && dest.classId == src.classId)
    {
      assert inserted[n + j] == added[j];
      assert CopyOf(added[j], cohort[j], j, dest, today, s.next.enrollment);
    }
  }

  /** After the 'passed' update no row of the source class is left active. */
  lemma PromoteCohortClearsSource(s: School, src: Class, dest: Class, today: Date)
    ensures var s' := PromoteCohort(s, src, dest, today, true);
            forall i :: 0 <= i < |s'.enrollments| && s'.enrollments[i].classId == src.classId ==>
              s'.enrollments[i].status == Passed
  {
  }

  /** The promotion chain. Every failure before the insert answers HTTP 400
      with a message and writes nothing; level 10 is refused outright and
      nobody is marked passed. On success one new enrollment per active
      source row goes to the next open year's level+1 class, then every row
      of the source class becomes 'passed'. The 'passed' UPDATE is not
      awaited: its failure is ignored and the reply is success anyway. */
  function Promote(s: School, caller: Option<ReqUser>, classId: Option<int>, today: Date, fault: Fault)
    : (r: (School, Reply))
    ensures AdminOnly(caller).Some? ==> r == (s, AdminOnly(caller).value)
    ensures (AdminOnly(caller).None? && (FailureAt(fault, FIND_CLASS).Some? || FindClass(s.classes, classId).None?))
              ==> r == (s, Reply(400, MessageError("Invalid class")))
    ensures (AdminOnly(caller).None? && FailureAt(fault, FIND_CLASS).None? && FindClass(s.classes, classId).Some?
             && FindClass(s.classes, classId).value.level == TERMINAL_LEVEL)
              ==> r == (s, Reply(400, MessageError("Class 10 students are passed out")))
    ensures var src := FindClass(s.classes, classId);
            (AdminOnly(caller).None? && FailureAt(fault, FIND_CLASS).None? && src.Some?
             && src.value.level != TERMINAL_LEVEL
             && (FailureAt(fault, FIND_YEAR).Some? || NextOpenYear(s.years, src.value.yearId).None?))
              ==> r == (s, Reply(400, MessageError("Next academic year not found")))
    ensures var src := FindClass(s.classes, classId);
            (AdminOnly(caller).None? && FailureAt(fault, FIND_CLASS).None? && src.Some?
             && src.value.level != TERMINAL_LEVEL
             && FailureAt(fault, FIND_YEAR).None? && NextOpenYear(s.years, src.value.yearId).Some?
             && (FailureAt(fault, FIND_NEXT_CLASS).Some?
                 || FindClassAt(s.classes, NextOpenYear(s.years, src.value.yearId).value, src.value.level + 1).None?))
              ==> r == (s, Reply(400, MessageError("Next class not found")))
    ensures (AdminOnly(caller).None? && Resolvable(s, classId, fault) && FailureAt(fault, INSERT_COHORT).Some?)
              ==> r == (s, Reply(500, MessageError(FailureAt(fault, INSERT_COHORT).value.message)))
    ensures !Succeeded(r.1) ==> r.0 == s
    ensures Succeeded(r.1) <==> AdminOnly(caller).None? && Resolvable(s, classId, fault)
                                && FailureAt(fault, INSERT_COHORT).None?
    ensures Succeeded(r.1) ==>
      && PayloadOf(r.1) == PromotedToClass(Source(s, classId, fault).level + 1)
      && r.0 == PromoteCohort(s, Source(s, classId, fault), Destination(s, classId, fault), today,
                              FailureAt(fault, MARK_PASSED).None?)
  {
    match AdminOnly(caller)
    case Some(denied) => (s, denied)
    case None =>
      var src := FindClass(s.classes, classId);
      if FailureAt(fault, FIND_CLASS).Some? || src.None? then (s, Reply(400, MessageError("Invalid class")))
      else if src.value.level == TERMINAL_LEVEL then (s, Reply(400, MessageError("Class 10 students are passed out")))
      else
        var toYear := NextOpenYear(s.years, src.value.yearId);
        if FailureAt(fault, FIND_YEAR).Some? || toYear.None? then
          (s, Reply(400, MessageError("Next academic year not found")))
        else
          var nextLevel := src.value.level + 1;
          var dest := FindClassAt(s.classes, toYear.value, nextLevel);
          if FailureAt(fault, FIND_NEXT_CLASS).Some? || dest.None? then
            (s, Reply(400, MessageError("Next class not found")))
          else match FailureAt(fault, INSERT_COHORT)
            case Some(e) => (s, Reply(500, MessageError(e.message)))
            case None =>
              (PromoteCohort(s, src.value, dest.value, today, FailureAt(fault, MARK_PASSED).None?),
               Answer(PromotedToClass(nextLevel)))
  }

  /** The destination is a class of the next open year, one level up, and
      that year comes strictly after the source's. */
  lemma DestinationIsNextLevel(s: School, classId: Option<int>, fault: Fault)
    requires Resolvable(s, classId, fault)
    ensures var src := Source(s, classId, fault);
            var dest := Destination(s, classId, fault);
            && dest in s.classes
            && dest.level == src.level + 1
            && dest.yearId > src.yearId
            && !exists i :: 0 <= i < |s.years| && OpenAfter(s.years[i], src.yearId) && s.years[i].yearId < dest.yearId
  {
    var src := Source(s, classId, fault);
    var dest := Destination(s, classId, fault);
    var k :| 0 <= k < |s.classes| && s.classes[k] == dest
             && forall j :: 0 <= j < k ==> !(s.classes[j].yearId == dest.yearId && s.classes[j].level == dest.level);
  }

  /** Every enrollment points at a class of its own academic year. */
  predicate Placed(e: Enrollment, classes: seq<Class>)
  {
    exists k :: 0 <= k < |classes| && classes[k].classId == e.classId && classes[k].yearId == e.yearId
  }

  predicate ClassYearConsistent(s: School)
  {
    forall i :: 0 <= i < |s.enrollments| ==> Placed(s.enrollments[i], s.classes)
  }

  /** The cohort's writes keep placement when the destination is a class of
      the school: old rows keep their class and year, new rows take the
      destination's. */
  lemma PromoteCohortPlaces(s: School, src: Class, dest: Class, today: Date, marked: bool)
    requires ClassYearConsistent(s)
    requires dest in s.classes
    ensures ClassYearConsistent(PromoteCohort(s, src, dest, today, marked))
  {
    var s' := PromoteCohort(s, src, dest, today, marked);
    var cohort := ActiveCohort(s.enrollments, src.classId);
    var n := |s.enrollments|;
    PromoteCohortExisting(s, src, dest, today, marked);
    PromoteCohortAdded(s, src, dest, today, marked);
    var k :| 0 <= k < |s.classes| && s.classes[k] == dest;
    forall i | 0 <= i < |s'.enrollments|
      ensures Placed(s'.enrollments[i], s'.classes)
    {
      if i < n {
        assert Placed(s.enrollments[i], s.classes);
      } else {
        assert CopyOf(s'.enrollments[n + (i - n)], cohort[i - n], i - n, dest, today, s.next.enrollment);
      }
    }
  }

  /** Promotion keeps every enrollment in a class of its own year: the
      destination class is looked up inside the destination year. */
  lemma PromotePreservesPlacement(s: School, caller: Option<ReqUser>, classId: Option<int>, today: Date, fault: Fault)
    requires ClassYearConsistent(s)
    ensures ClassYearConsistent(Promote(s, caller, classId, today, fault).0)
  {
    var r := Promote(s, caller, classId, today, fault);
    if Succeeded(r.1) {
      DestinationIsNextLevel(s, classId, fault);
      PromoteCohortPlaces(s, Source(s, classId, fault), Destination(s, classId, fault), today,
                          FailureAt(fault, MARK_PASSED).None?);
    }
  }

  /** With no active row left in the source class and every row of it
      already 'passed', the cohort's writes change nothing. */
  lemma PromoteCohortIdle(s: School, src: Class, dest: Class, today: Date)
    requires forall i :: 0 <= i < |s.enrollments| && s.enrollments[i].classId == src.classId ==>
               s.enrollments[i].status == Passed
    ensures PromoteCohort(s, src, dest, today, true) == s
  {
    FilterNone(s.enrollments, (e: Enrollment) => e.classId == src.classId && e.status == Active);
    assert ActiveCohort(s.enrollments, src.classId) == [];
    assert s.enrollments + [] == s.enrollments;
    assert MarkPassed(s.enrollments, src.classId) == s.enrollments;
  }

  /** A repeated promotion of the same class inserts nothing and changes
      nothing: the first one left no active row in the source class. */
  lemma PromoteTwiceChangesNothing(s: School, caller: Option<ReqUser>, classId: Option<int>, today: Date, later: Date)
    requires Succeeded(Promote(s, caller, classId, today, NoFault).1)
    ensures var s1 := Promote(s, caller, classId, today, NoFault).0;
            Promote(s1, caller, classId, later, NoFault) == (s1, Promote(s, caller, classId, today, NoFault).1)
  {
    var src := Source(s, classId, NoFault);
    var dest := Destination(s, classId, NoFault);
    var s1 := Promote(s, caller, classId, today, NoFault).0;
    assert s1 == PromoteCohort(s, src, dest, today, true);
    PromoteCohortClearsSource(s, src, dest, today);
    assert Resolvable(s1, classId, NoFault);
    assert Source(s1, classId, NoFault) == src && Destination(s1, classId, NoFault) == dest;
    PromoteCohortIdle(s1, src, dest, later);
  }

  /** Nothing stops a promotion from giving a student a second active
      enrollment in the destination year: here student 7 was already
      admitted to the level-10 class of year 2 and is copied there again. */
  lemma PromotionCanDuplicateYearEnrollment()
    ensures var d := Date(2025, 4, 1);
            var s := School([], [], [], [AcademicYear(1, true, false), AcademicYear(2, false, false)],
                            [Class(5, 9, 1), Class(9, 10, 2)], [],
                            [Enrollment(1, 7, 1, 5, 1, d, None, Active), Enrollment(2, 7, 2, 9, 1, d, None, Active)],
                            [], [], [], [], [], [], Counters(1, 8, 3, 1, 1));
            var s' := Promote(s, Some(ReqUser(1, "admin")), Some(5), d, NoFault).0;
            && |s'.enrollments| == 3
            && s'.enrollments[1].masterId == s'.enrollments[2].masterId == 7
            && s'.enrollments[1].yearId == s'.enrollments[2].yearId == 2
            && s'.enrollments[1].status == s'.enrollments[2].status == Active
  {
    var d := Date(2025, 4, 1);
    var years := [AcademicYear(1, true, false), AcademicYear(2, false, false)];
    var classes := [Class(5, 9, 1), Class(9, 10, 2)];
    var es := [Enrollment(1, 7, 1, 5, 1, d, None, Active), Enrollment(2, 7, 2, 9, 1, d, None, Active)];
    var s := School([], [], [], years, classes, [], es, [], [], [], [], [], [], Counters(1, 8, 3, 1, 1));
    assert FindClass(classes, Some(5)) == Some(Class(5, 9, 1));
    assert NextOpenYear(years[1..], 1) == Some(2);
    assert NextOpenYear(years, 1) == Some(2);
    assert FindClassAt(classes, 2, 10) == Some(Class(9, 10, 2));
    var cohort := ActiveCohort(es, 5);
    assert es[0] in cohort;
    assert es[1] !in cohort;
    assert ActiveCohort(es[1..], 5) == [];
    assert cohort == [es[0]];
  }

  // POST /student/add

  const ADD_CONNECT: nat := 0
  const ADD_BEGIN: nat := 1
  const INSERT_MASTER: nat := 2
  const INSERT_ENROLLMENT: nat := 3
  const ADD_COMMIT: nat := 4

  datatype AdmissionForm = AdmissionForm(
    regNo: Option<string>,
    fname: Option<string>,
    gender: Option<string>,
    rollNo: Option<int>,
    classId: Option<int>,
    yearId: Option<int>,
    admissionDate: Option<Date>)

  /** The seven required fields; 0 is a missing number. */
  predicate AdmissionComplete(f: AdmissionForm)
  {
    && GivenText(f.regNo) && GivenText(f.fname) && GivenText(f.gender)
    && GivenNumber(f.rollNo) && GivenNumber(f.classId) && GivenNumber(f.yearId)
    && f.admissionDate.Some?
  }

  /** A committed admission: one master row and one enrollment pointing at
      it (no login, default status), and nothing else. */
  predicate Admitted(s: School, s': School, f: AdmissionForm)
    requires AdmissionComplete(f)
  {
    var mid := s.next.master;
    var eid := s.next.enrollment;
    && s'.masters == s.masters + [StudentMaster(mid, f.regNo.value, f.fname.value, f.gender.value)]
    && s'.enrollments == s.enrollments
         + [Enrollment(eid, mid, f.yearId.value, f.classId.value, f.rollNo.value, f.admissionDate.value, None, Active)]
    && s' == s.(masters := s'.masters, enrollments := s'.enrollments,
                next := s.next.(master := mid + 1, enrollment := eid + 1))
  }

  /** The admission transaction: both rows or neither. */
  function AddStudent(s: School, caller: Option<ReqUser>, f: AdmissionForm, fault: Fault): (r: (School, Reply))
    ensures AdminOnly(caller).Some? ==> r == (s, AdminOnly(caller).value)
    ensures AdminOnly(caller).None? && !AdmissionComplete(f) ==> r == (s, Refuse(200, Text("Missing required fields")))
    // a failure anywhere in the transaction is rolled back and reported as is
    ensures (AdminOnly(caller).None? && AdmissionComplete(f) && fault.FailAt? && fault.step <= ADD_COMMIT)
              ==> r == (s, Refuse(200, Thrown(fault.error)))
    ensures Succeeded(r.1) <==> AdminOnly(caller).None? && AdmissionComplete(f)
                                && !(fault.FailAt? && fault.step <= ADD_COMMIT)
    ensures Succeeded(r.1) ==> AdmissionComplete(f) && Admitted(s, r.0, f)
                               && PayloadOf(r.1) == Message("Student added successfully")
    ensures !Succeeded(r.1) ==> r.0 == s
  {
    match AdminOnly(caller)
    case Some(denied) => (s, denied)
    case None =>
      if !AdmissionComplete(f) then (s, Refuse(200, Text("Missing required fields")))
      else if fault.FailAt? && fault.step <= ADD_COMMIT then (s, Refuse(200, Thrown(fault.error)))
      else
        var mid := s.next.master;
        var eid := s.next.enrollment;
        var master := StudentMaster(mid, f.regNo.value, f.fname.value, f.gender.value);
        var enrollment := Enrollment(eid, mid, f.yearId.value, f.classId.value, f.rollNo.value,
                                     f.admissionDate.value, None, Active);
        (s.(masters := s.masters + [master], enrollments := s.enrollments + [enrollment],
            next := s.next.(master := mid + 1, enrollment := eid + 1)),
         Answer(Message("Student added successfully")))
  }

  /** Admission never checks that the class belongs to the given year, so
      it can break the placement invariant that promotion keeps. */
  lemma AdmissionCanMisplace()
    ensures var s := School([], [], [], [AcademicYear(1, true, false), AcademicYear(2, false, false)],
                            [Class(5, 9, 1)], [], [], [], [], [], [], [], [], Counters(1, 1, 1, 1, 1));
            var f := AdmissionForm(Some("R1"), Some("Asha"), Some("F"), Some(1), Some(5), Some(2), Some(Date(2025, 6, 1)));
            ClassYearConsistent(s) && !ClassYearConsistent(AddStudent(s, Some(ReqUser(1, "admin")), f, NoFault).0)
  {
    var s := School([], [], [], [AcademicYear(1, true, false), AcademicYear(2, false, false)],
                    [Class(5, 9, 1)], [], [], [], [], [], [], [], [], Counters(1, 1, 1, 1, 1));
    var f := AdmissionForm(Some("R1"), Some("Asha"), Some("F"), Some(1), Some(5), Some(2), Some(Date(2025, 6, 1)));
    var s' := AddStudent(s, Some(ReqUser(1, "admin")), f, NoFault).0;
    assert s'.enrollments[0].classId == 5 && s'.enrollments[0].yearId == 2;
    assert !Placed(s'.enrollments[0], s'.classes);
  }

  // POST /fees/assign/student

  const INSERT_ASSIGNMENT: nat := 0

  /** A plain INSERT, not an upsert: assigning again adds a second row. */
  function AssignFee(s: School, caller: Option<ReqUser>, enrollmentId: int, total: int, today: Date, fault: Fault)
    : (r: (School, Reply))
    ensures AdminOnly(caller).Some? ==> r == (s, AdminOnly(caller).value)
    ensures (AdminOnly(caller).None? && FailureAt(fault, INSERT_ASSIGNMENT).Some?)
              ==> r == (s, Refuse(200, Thrown(FailureAt(fault, INSERT_ASSIGNMENT).value)))
    ensures Succeeded(r.1) <==> AdminOnly(caller).None? && FailureAt(fault, INSERT_ASSIGNMENT).None?
    ensures !Succeeded(r.1) ==> r.0 == s
    ensures Succeeded(r.1) ==>
      && PayloadOf(r.1) == Message("Fee assigned")
      && r.0 == s.(assignments := s.assignments + [FeeAssignment(s.next.assignment, enrollmentId, total, today)],
                   next := s.next.(assignment := s.next.assignment + 1))
  {
    match AdminOnly(caller)
    case Some(denied) => (s, denied)
    case None =>
      match FailureAt(fault, INSERT_ASSIGNMENT)
      case Some(e) => (s, Refuse(200, Thrown(e)))
      case None =>
        var row := FeeAssignment(s.next.assignment, enrollmentId, total, today);
        (s.(assignments := s.assignments + [row], next := s.next.(assignment := s.next.assignment + 1)),
         Answer(Message("Fee assigned")))
  }

  // POST /fees/payment

  const INSERT_PAYMENT: nat := 0

  /** A plain INSERT into the payment ledger; the reply is the
      `createResult` of the insert's error with a fixed message. */
  function RecordPayment(s: School, caller: Option<ReqUser>, enrollmentId: int, amount: int, fault: Fault)
    : (r: (School, Reply))
    ensures AdminOnly(caller).Some? ==> r == (s, AdminOnly(caller).value)
    ensures (AdminOnly(caller).None? && FailureAt(fault, INSERT_PAYMENT).Some?)
              ==> r == (s, Refuse(200, Thrown(FailureAt(fault, INSERT_PAYMENT).value)))
    ensures Succeeded(r.1) <==> AdminOnly(caller).None? && FailureAt(fault, INSERT_PAYMENT).None?
    ensures !Succeeded(r.1) ==> r.0 == s
    ensures Succeeded(r.1) ==>
      && PayloadOf(r.1) == Message("Payment recorded")
      && r.0 == s.(payments := s.payments + [FeePayment(enrollmentId, amount)])
  {
    match AdminOnly(caller)
    case Some(denied) => (s, denied)
    case None =>
      match FailureAt(fault, INSERT_PAYMENT)
      case Some(e) => (s, Refuse(200, Thrown(e)))
      case None => (s.(payments := s.payments + [FeePayment(enrollmentId, amount)]), Answer(Message("Payment recorded")))
  }
}

=== FILE: auth.dfy ===
/** routes/Auth.js: admin-only registration of a login together with its
    student or employee row, and sign-in for every role. bcrypt is modelled
    by two oracles (`hash` for the stored digest, `compare` for the check),
    jsonwebtoken's `sign` by a third. */
module Auth {
  import opened Base
  import opened Envelope
  import opened Schema
  import opened Token
  import opened Tables

  /** Statements of the registration transaction, in order. */
  const CONNECT: nat := 0
  const BEGIN: nat := 1
  const HASH: nat := 2
  const INSERT_USER: nat := 3
  const INSERT_ROLE_ROW: nat := 4
  const COMMIT: nat := 5

  /** The one statement of sign-in. */
  const FIND_USER: nat := 0

  /** The guard of this file: it assumes `req.user` is set (the route runs
      behind the token middleware) and answers with HTTP 200. */
  function AdminOnly(user: ReqUser): (r: Option<Reply>)
    ensures r.None? <==> user.role == "admin"
    ensures r.Some? ==> r.value == Refuse(200, Text("Access denied: Admin only"))
  {
    RequireRole(user, "admin", "Access denied: Admin only")
  }

  datatype RegistrationForm = RegistrationForm(
    fname: Option<string>,
    role: Option<string>,
    date: Option<Date>,
    salary: Option<int>,
    rollNo: Option<int>,
    regNo: Option<string>,
    classId: Option<int>)

  /** The fields registration insists on; username and password both come from `reg_no`. */
  predicate Complete(form: RegistrationForm)
  {
    GivenText(form.fname) && GivenText(form.regNo) && GivenText(form.role) && form.date.Some?
  }

  /** The statement at which a transaction ending with step `last` fails, if any. */
  function FailureUpTo(f: Fault, last: nat): (e: Option<DbError>)
    ensures e.Some? <==> f.FailAt? && f.step <= last
  {
    if f.FailAt? && f.step <= last then Some(f.error) else None
  }

  /** The state after a committed registration: one new login whose username
      and password digest both derive from `reg_no`, and one row in the table
      its role selects, linked to that login. Nothing else changes. */
  predicate Registered(s: School, s': School, form: RegistrationForm, hash: string -> string)
    requires Complete(form)
  {
    var uid := s.next.user;
    var regNo := form.regNo.value;
    && s'.users == s.users + [User(uid, regNo, hash(regNo), form.role.value, "active")]
    && (form.role.value == "student" ==>
          && s'.students == s.students + [StudentRow(uid, form.fname.value, form.date.value, form.rollNo, regNo, form.classId)]
          && s'.employees == s.employees)
    && (form.role.value != "student" ==>
          && s'.employees == s.employees + [EmployeeRow(uid, regNo, form.fname.value, form.date.value, form.salary)]
          && s'.students == s.students)
    && s' == s.(users := s'.users, students := s'.students, employees := s'.employees,
                next := s.next.(user := uid + 1))
  }

  /** POST /auth/registration. Both inserts run in one transaction, so a
      failure at any statement leaves the state as it was. */
  function Register(s: School, caller: ReqUser, form: RegistrationForm, hash: string -> string, fault: Fault)
    : (r: (School, Reply))
    ensures caller.role != "admin" ==> r == (s, Refuse(200, Text("Access denied: Admin only")))
    ensures caller.role == "admin" && !Complete(form) ==> r == (s, Refuse(200, Text("Missing required fields")))
    ensures (caller.role == "admin" && Complete(form) && FailureUpTo(fault, COMMIT).Some?)
              ==> r.0 == s && r.1 == Refuse(200, Thrown(FailureUpTo(fault, COMMIT).value))
    // all-or-nothing: either no write at all, or the login and its role row both
    ensures Succeeded(r.1) <==> caller.role == "admin" && Complete(form) && FailureUpTo(fault, COMMIT).None?
    ensures Succeeded(r.1) ==> Complete(form) && Registered(s, r.0, form, hash)
    ensures Succeeded(r.1) ==>
              PayloadOf(r.1) == Message(if form.role.value == "student" then "Student registered successfully"
                                        else "Employee registered successfully")
    ensures !Succeeded(r.1) ==> r.0 == s
  {
    match AdminOnly(caller)
    case Some(denied) => (s, denied)
    case None =>
      var username := form.regNo;
      var password := form.regNo;
      if !GivenText(form.fname) || !GivenText(username) || !GivenText(password)
         || !GivenText(form.role) || form.date.None? then
        (s, Refuse(200, Text("Missing required fields")))
      else match FailureUpTo(fault, COMMIT)
        case Some(e) => (s, Refuse(200, Thrown(e)))
        case None =>
          var uid := s.next.user;
          var role := form.role.value;
          var user := User(uid, username.value, hash(password.value), role, "active");
          var s1 := s.(users := s.users + [user], next := s.next.(user := uid + 1));
          if role == "student" then
            var row := StudentRow(uid, form.fname.value, form.date.value, form.rollNo, form.regNo.value, form.classId);
            (s1.(students := s.students + [row]), Answer(Message("Student registered successfully")))
          else
            var row := EmployeeRow(uid, form.regNo.value, form.fname.value, form.date.value, form.salary);
            (s1.(employees := s.employees + [row]), Answer(Message("Employee registered successfully")))
  }

  datatype Credentials = Credentials(username: Option<string>, password: Option<string>)

  /** bcrypt.compare's three outcomes. */
  datatype Comparison = Match | Mismatch | CompareFailed(error: DbError)

  /** The JWT payload sign-in signs. */
  datatype TokenPayload = TokenPayload(userId: int, role: string)

  predicate ActiveNamed(u: User, username: string)
  {
    u.username == username && u.status == "active"
  }

  /** `data[0]` of `SELECT ... WHERE username = ? AND status = 'active'`;
      a missing username matches no row. */
  function FirstActiveUser(users: seq<User>, username: Option<string>): Option<User>
  {
    if username.None? then None else First(users, (u: User) => ActiveNamed(u, username.value))
  }

  /** POST /auth/signin. Only active logins are considered; an unknown or
      inactive username, a failed lookup and a wrong password all answer 401
      'Invalid credentials'. A match answers the signed `{user_id, role}` of
      the first active login with that username, and that role. */
  function SignIn(s: School, creds: Credentials, compare: (Option<string>, string) -> Comparison,
                  sign: TokenPayload -> string, fault: Fault): (r: Reply)
    ensures FailureAt(fault, FIND_USER).Some? ==> r == Refuse(401, Text("Invalid credentials"))
    ensures FirstActiveUser(s.users, creds.username).None? ==> r == Refuse(401, Text("Invalid credentials"))
    ensures Succeeded(r) <==> FailureAt(fault, FIND_USER).None? && FirstActiveUser(s.users, creds.username).Some?
                              && compare(creds.password, FirstActiveUser(s.users, creds.username).value.password) == Match
    ensures Succeeded(r) ==> var u := FirstActiveUser(s.users, creds.username).value;
                             PayloadOf(r) == SignedIn(sign(TokenPayload(u.userId, u.role)), u.role)
    ensures (FailureAt(fault, FIND_USER).None? && FirstActiveUser(s.users, creds.username).Some?
             && compare(creds.password, FirstActiveUser(s.users, creds.username).value.password) == Mismatch)
              ==> r == Refuse(401, Text("Invalid credentials"))
    // a bcrypt error is not a credential failure: it is reported with HTTP 200
    ensures (FailureAt(fault, FIND_USER).None? && FirstActiveUser(s.users, creds.username).Some?
             && compare(creds.password, FirstActiveUser(s.users, creds.username).value.password).CompareFailed?)
              ==> r == Refuse(200, Thrown(compare(creds.password, FirstActiveUser(s.users, creds.username).value.password).error))
  {
    if FailureAt(fault, FIND_USER).Some? then Refuse(401, Text("Invalid credentials"))
    else match FirstActiveUser(s.users, creds.username)
      case None => Refuse(401, Text("Invalid credentials"))
      case Some(u) =>
        match compare(creds.password, u.password)
        case CompareFailed(e) => Refuse(200, Thrown(e))
        case Mismatch => Refuse(401, Text("Invalid credentials"))
        case Match => Answer(SignedIn(sign(TokenPayload(u.userId, u.role)), u.role))
  }

  /** Appending a login after every existing one does not change who signs
      in under another name, and makes the new login the match for its own
      name when no active login had that name before. */
  lemma FirstActiveUserAppend(users: seq<User>, u: User, name: string)
    requires u.status == "active" && u.username == name
    requires forall i :: 0 <= i < |users| ==> !ActiveNamed(users[i], name)
    ensures FirstActiveUser(users + [u], Some(name)) == Some(u)
    ensures forall n :: n != name ==> FirstActiveUser(users + [u], Some(n)) == FirstActiveUser(users, Some(n))
  {
    var all := users + [u];
    assert all[|users|] == u;
    forall n | n != name
      ensures FirstActiveUser(users + [u], Some(n)) == FirstActiveUser(users, Some(n))
    {
      FirstAppend(users, [u], (v: User) => ActiveNamed(v, n));
    }
  }

  /** Registration then sign-in: a freshly registered login signs in with
      `reg_no` as both username and password, provided no active login had
      that username and bcrypt accepts the password against its own digest.
      The token carries the new login's id and the role it was registered with. */
  lemma RegisteredUserCanSignIn(s: School, caller: ReqUser, form: RegistrationForm,
                                hash: string -> string, compare: (Option<string>, string) -> Comparison,
                                sign: TokenPayload -> string)
    requires caller.role == "admin" && Complete(form)
    requires forall i :: 0 <= i < |s.users| ==> !ActiveNamed(s.users[i], form.regNo.value)
    requires compare(form.regNo, hash(form.regNo.value)) == Match
    ensures var s' := Register(s, caller, form, hash, NoFault).0;
            SignIn(s', Credentials(form.regNo, form.regNo), compare, sign, NoFault)
              == Answer(SignedIn(sign(TokenPayload(s.next.user, form.role.value)), form.role.value))
  {
    var s' := Register(s, caller, form, hash, NoFault).0;
    var u := User(s.next.user, form.regNo.value, hash(form.regNo.value), form.role.value, "active");
    assert s'.users == s.users + [u];
    FirstActiveUserAppend(s.users, u, form.regNo.value);
  }

  /** The JWT oracle accepts every token it signed and decodes it to that
      payload's `user_id` and `role`; the timestamps it adds are free. */
  ghost predicate Decodes(sign: TokenPayload -> string, verify: string -> Option<Claims>)
  {
    forall p :: verify(sign(p)).Some? && verify(sign(p)).value.userId == p.userId && verify(sign(p)).value.role == p.role
  }

  /** Sign-in then the token middleware: if the JWT oracle decodes every
      token it signed back to that payload, and tokens are non-empty and
      space-free, the "Bearer <token>" header of a sign-in reply makes
      `req.user` the signed-in login's `{user_id, role}`. */
  lemma SignInTokenAuthenticates(s: School, creds: Credentials, compare: (Option<string>, string) -> Comparison,
                                 sign: TokenPayload -> string, verify: string -> Option<Claims>)
    requires Succeeded(SignIn(s, creds, compare, sign, NoFault))
    requires forall p :: sign(p) != "" && SpaceFree(sign(p))
    requires Decodes(sign, verify)
    ensures var u := FirstActiveUser(s.users, creds.username).value;
            var token := PayloadOf(SignIn(s, creds, compare, sign, NoFault)).token;
            VerifyToken(Some("Bearer " + token), verify) == Pass(ReqUser(u.userId, u.role))
  {
    var u := FirstActiveUser(s.users, creds.username).value;
    var p := TokenPayload(u.userId, u.role);
    BearerHeaderPasses(sign(p), verify);
  }
}

=== FILE: base.dfy ===
/** Shared vocabulary of the model: optional values, calendar dates, the
    store's failure oracle and JavaScript truthiness of request fields. */
module Base {

  /** A value that may be absent (SQL NULL, a missing JSON field, an empty result set). */
  datatype Option<+T> = None | Some(value: T)

  /** A calendar date; MONTH() and YEAR() of SQL are the `month` and `year` fields. */
  datatype Date = Date(year: int, month: int, day: int)

  /** Chronological order on dates (the order of ORDER BY on a DATE column). */
  predicate DateLe(a: Date, b: Date)
  {
    a.year < b.year
    || (a.year == b.year && a.month < b.month)
    || (a.year == b.year && a.month == b.month && a.day <= b.day)
  }

  /** An error object raised by the database driver, bcrypt or the pool. */
  datatype DbError = DbError(message: string)

  /** Which statement of a request the environment makes fail, if any.
      Every handler stops at its first failing statement, so one failure
      point per request covers every run. Each handler names its steps. */
  datatype Fault = NoFault | FailAt(step: nat, error: DbError)

  function FailureAt(f: Fault, step: nat): (r: Option<DbError>)
    ensures r.Some? <==> f.FailAt? && f.step == step
  {
    if f.FailAt? && f.step == step then Some(f.error) else None
  }

  /** `!field` is false: the JSON field is present and not the empty string. */
  predicate GivenText(o: Option<string>)
  {
    o.Some? && o.value != ""
  }

  /** `!field` is false for a number: present and not 0. */
  predicate GivenNumber(o: Option<int>)
  {
    o.Some? && o.value != 0
  }

  /** `!list || !list.length` is false: the array is present and non-empty. */
  predicate GivenList<T>(o: Option<seq<T>>)
  {
    o.Some? && |o.value| > 0
  }
}

=== FILE: envelope.dfy ===
/** The uniform response envelope of utils/result.js: every handler that
    answers through `createResult` gets `{status:'error', error}` or
    `{status:'success', data}` from the rules below. */
module Envelope {
  import opened Base

  /** The first argument of `createResult`: nothing, a message string, or an
      error object thrown by the driver. */
  datatype JsErr = NoErr | Text(text: string) | Thrown(thrown: DbError)

  /** JavaScript truthiness of the `err` argument: the empty string is falsy,
      every error object is truthy. */
  predicate Truthy(e: JsErr)
  {
    match e
    case NoErr => false
    case Text(t) => t != ""
    case Thrown(_) => true
  }

  /** What ends up in the `error` field: a message string, or the error
      object itself when its `message` is empty. */
  datatype ErrorValue = ErrText(text: string) | ErrObject(obj: DbError)

  /** The `data` argument: `affectedRows` is defined only for INSERT, UPDATE
      and DELETE results; `content` is everything else the value carries. */
  datatype Value<+T> = Value(affectedRows: Option<int>, content: T)

  datatype Envelope<+T> = Success(data: T) | Error(error: ErrorValue)

  /** `err.message || err`: a string has no `message`, so it is kept as is;
      an error object yields its message unless that message is empty. */
  function ErrorOf(e: JsErr): (v: ErrorValue)
    requires Truthy(e)
    ensures e.Text? ==> v == ErrText(e.text)
    ensures e.Thrown? && e.thrown.message != "" ==> v == ErrText(e.thrown.message)
    ensures e.Thrown? && e.thrown.message == "" ==> v == ErrObject(e.thrown)
  {
    match e
    case Text(t) => ErrText(t)
    case Thrown(x) => if x.message != "" then ErrText(x.message) else ErrObject(x)
  }

  /** `createResult(err, data)`. With a falsy `err` the source reads
      `data.affectedRows`, which throws on a missing `data`: callers must
      supply one. */
  function CreateResult<T>(err: JsErr, data: Option<Value<T>>): (r: Envelope<Value<T>>)
    requires !Truthy(err) ==> data.Some?
    // the error check comes first, whatever `data` holds
    ensures Truthy(err) ==> r == Error(ErrorOf(err))
    // a write that touched no row is a failure
    ensures !Truthy(err) && data.value.affectedRows == Some(0) ==> r == Error(ErrText("Operation failed"))
    // otherwise `data` is handed back unchanged
    ensures !Truthy(err) && data.value.affectedRows != Some(0) ==> r == Success(data.value)
    ensures r.Error? <==> Truthy(err) || data.value.affectedRows == Some(0)
  {
    if Truthy(err) then Error(ErrorOf(err))
    else if data.value.affectedRows.Some? && data.value.affectedRows.value == 0 then
      Error(ErrText("Operation failed"))
    else Success(data.value)
  }

  /** A message string passed as the error never depends on `data`, and is
      reported verbatim. */
  lemma MessageErrorIgnoresData<T>(msg: string, d1: Option<Value<T>>, d2: Option<Value<T>>)
    requires msg != ""
    ensures CreateResult(Text(msg), d1) == CreateResult(Text(msg), d2) == Error(ErrText(msg))
  {
  }

  /** An empty message is falsy: `createResult('', data)` takes the data path. */
  lemma EmptyMessageIsNoError<T>(d: Value<T>)
    ensures CreateResult(Text(""), Some(d)) == CreateResult(NoErr, Some(d))
  {
  }
}

=== FILE: schema.dfy ===
/** The relational state the route handlers read and write, one datatype per
    table, and the HTTP replies they send. Tables are sequences in storage
    order: a query without ORDER BY returns its rows in that order. */
module Schema {
  import opened Base
  import opened Envelope

  /** `users`: the login table. New rows are taken to start with status 'active', the assumed column default. */
  datatype User = User(userId: int, username: string, password: string, role: string, status: string)

  /** `employees`: one row per registered non-student user. */
  datatype EmployeeRow = EmployeeRow(userId: int, regNo: string, fname: string, joiningDate: Date, salary: Option<int>)

  /** `students`: the flat student table that registration still writes. */
  datatype StudentRow = StudentRow(userId: int, fname: string, admissionDate: Date, rollNo: Option<int>, regNo: string, classId: Option<int>)

  datatype AcademicYear = AcademicYear(yearId: int, isActive: bool, isClosed: bool)

  /** A class has a level (1..10) and belongs to exactly one academic year;
      its division and class teacher are display columns and are not kept. */
  datatype Class = Class(classId: int, level: int, yearId: int)

  /** `student_master`: the student as a person, stable across years. */
  datatype StudentMaster = StudentMaster(masterId: int, regNo: string, fname: string, gender: string)

  /** The values the handlers write: 'active' (the assumed column default),
      'left' and 'active' from the toggle, 'passed' from promotion.
      `Inactive` stands for any other value a row may carry; the shadowed
      second toggle handler would write it. */
  datatype EnrollmentStatus = Active | Inactive | Left | Passed

  /** `student_enrollments`: one student in one class for one year. Rows
      inserted without a status are taken to get 'active', the assumed default. */
  datatype Enrollment = Enrollment(
    enrollmentId: int,
    masterId: int,
    yearId: int,
    classId: int,
    rollNo: int,
    admissionDate: Date,
    userId: Option<int>,
    status: EnrollmentStatus)

  /** `attendance_students`: the status is whatever text the teacher sent.
      The row's own `attendance_id` is not kept. */
  datatype AttendanceRecord = AttendanceRecord(enrollmentId: int, date: Date, status: string)

  datatype Subject = Subject(subjectId: int, yearId: int)

  datatype Exam = Exam(examId: int, name: string, yearId: int)

  datatype Grade = APlus | A | B | C | D | F

  datatype MarkRow = MarkRow(enrollmentId: int, subjectId: int, examId: int, obtained: int, maxMarks: int, grade: Grade)

  datatype FeeAssignment = FeeAssignment(assignmentId: int, enrollmentId: int, total: int, assignedDate: Date)

  /** `fee_payments`: the row's own `payment_id` is not kept. */
  datatype FeePayment = FeePayment(enrollmentId: int, amount: int)

  /** The next value of each AUTO_INCREMENT key the model keeps. */
  datatype Counters = Counters(user: nat, master: nat, enrollment: nat, exam: nat, assignment: nat)

  datatype School = School(
    users: seq<User>,
    employees: seq<EmployeeRow>,
    students: seq<StudentRow>,
    years: seq<AcademicYear>,
    classes: seq<Class>,
    masters: seq<StudentMaster>,
    enrollments: seq<Enrollment>,
    attendance: seq<AttendanceRecord>,
    subjects: seq<Subject>,
    exams: seq<Exam>,
    marks: seq<MarkRow>,
    assignments: seq<FeeAssignment>,
    payments: seq<FeePayment>,
    next: Counters)

  /** What a successful reply carries in `data`. */
  datatype Payload =
    | Message(text: string)
    | PromotedToClass(level: int)
    | SignedIn(token: string, role: string)
    | EnrollmentSnapshot(enrollmentId: int, masterId: int, rollNo: int, admissionDate: Date,
                         yearId: int, classId: int, classLevel: int)
    | AttendanceReport(totalDays: int, presentDays: int, absentDays: int, records: seq<AttendanceRecord>)
    | FeeReport(totalAmount: int, paidAmount: int, dueAmount: int)

  /** A response body: the `createResult` envelope, or the
      `{status:'error', message}` shape some admin handlers build by hand. */
  datatype Body = Enveloped(envelope: Envelope<Value<Payload>>) | MessageError(message: string)

  datatype Reply = Reply(code: nat, body: Body)

  /** `res.send(createResult(err))` with the given HTTP status. */
  function Refuse(code: nat, err: JsErr): Reply
    requires Truthy(err)
  {
    Reply(code, Enveloped(CreateResult(err, None)))
  }

  /** `res.send(createResult(null, payload))`: a payload that is not a write result. */
  function Answer(p: Payload): Reply
  {
    Reply(200, Enveloped(CreateResult(NoErr, Some(Value(None, p)))))
  }

  predicate Succeeded(r: Reply)
  {
    r.body.Enveloped? && r.body.envelope.Success?
  }

  /** The payload of a successful reply. */
  function PayloadOf(r: Reply): Payload
    requires Succeeded(r)
  {
    r.body.envelope.data.content
  }
}

=== FILE: server.dfy ===
/** server.js: `/auth` is mounted before the global token middleware, every
    other router after it; registration repeats the middleware on its own
    route. `Serve` dispatches one request of the modelled handlers through
    that pipeline. */
module Server {
  import opened Base
  import opened Schema
  import opened Token
  import Auth
  import Admin
  import Teacher
  import Student

  /** The modelled routes with their request parameters. */
  datatype Request =
    | SignInReq(creds: Auth.Credentials)
    | RegisterReq(form: Auth.RegistrationForm)
    | ToggleReq(toggleId: Option<int>)
    | PromoteReq(classId: Option<int>)
    | AdmitReq(admission: Admin.AdmissionForm)
    | AssignFeeReq(feeEnrollment: int, total: int)
    | PaymentReq(paidEnrollment: int, amount: int)
    | MarkAttendanceReq(date: Option<Date>, entries: Option<seq<Teacher.AttendanceEntry>>)
    | AddMarksReq(marks: Teacher.MarksForm)
    | CurrentEnrollmentReq
    | AttendanceReq(query: Student.MonthQuery)
    | FeesReq(feesOf: Option<int>)

  /** What the handlers take from outside the database: bcrypt, jsonwebtoken
      and the server's clock (CURDATE()). */
  datatype Env = Env(
    hash: string -> string,
    compare: (Option<string>, string) -> Auth.Comparison,
    sign: Auth.TokenPayload -> string,
    verify: string -> Option<Claims>,
    today: Date)

  /** The role a request must carry to change anything, if it can. */
  function Writer(req: Request): Option<string>
  {
    match req
    case RegisterReq(_) => Some("admin")
    case ToggleReq(_) => Some("admin")
    case PromoteReq(_) => Some("admin")
    case AdmitReq(_) => Some("admin")
    case AssignFeeReq(_, _) => Some("admin")
    case PaymentReq(_, _) => Some("admin")
    case MarkAttendanceReq(_, _) => Some("teacher")
    case AddMarksReq(_) => Some("teacher")
    case _ => None
  }

  /** The handler behind the token middleware, for a request that passed it.
      The read routes never change the state. */
  function Route(s: School, user: ReqUser, req: Request, env: Env, fault: Fault): (r: (School, Reply))
    requires !req.SignInReq?
    ensures Writer(req).None? ==> r.0 == s
  {
    match req
    case RegisterReq(form) => Auth.Register(s, user, form, env.hash, fault)
    case ToggleReq(id) => Admin.ToggleStatus(s, Some(user), id, fault)
    case PromoteReq(classId) => Admin.Promote(s, Some(user), classId, env.today, fault)
    case AdmitReq(form) => Admin.AddStudent(s, Some(user), form, fault)
    case AssignFeeReq(eid, total) => Admin.AssignFee(s, Some(user), eid, total, env.today, fault)
    case PaymentReq(eid, amount) => Admin.RecordPayment(s, Some(user), eid, amount, fault)
    case MarkAttendanceReq(date, entries) => Teacher.MarkAttendance(s, user, date, entries, fault)
    case AddMarksReq(form) => Teacher.AddMarks(s, user, form, fault)
    case CurrentEnrollmentReq => (s, Student.CurrentEnrollment(s, user, fault))
    case AttendanceReq(q) => (s, Student.AttendanceSummary(s, user, q, fault))
    case FeesReq(eid) => (s, Student.FeeSummary(s, user, eid, fault))
  }

  /** One request through the pipeline: sign-in is public, everything else
      first passes the token middleware, which answers on its own when the
      header does not check out. Only sign-in is answered without a token,
      and it never changes the state. */
  function Serve(s: School, header: Option<string>, req: Request, env: Env, fault: Fault): (r: (School, Reply))
    // nothing is written unless the request reaches a handler through the middleware
    ensures req.SignInReq? || VerifyToken(header, env.verify).Halt? ==> r.0 == s
    // only sign-in is answered without a token
    ensures req.SignInReq? ==> r.1 == Auth.SignIn(s, req.creds, env.compare, env.sign, fault)
    ensures !req.SignInReq? && VerifyToken(header, env.verify).Halt? ==> r.1 == VerifyToken(header, env.verify).reply
    ensures !req.SignInReq? && VerifyToken(header, env.verify).Pass? ==>
              r == Route(s, VerifyToken(header, env.verify).user, req, env, fault)
  {
    if req.SignInReq? then (s, Auth.SignIn(s, req.creds, env.compare, env.sign, fault))
    else match VerifyToken(header, env.verify)
      case Halt(reply) => (s, reply)
      case Pass(user) => Route(s, user, req, env, fault)
  }

  /** Without an Authorization header nothing but sign-in is answered, and
      nothing is written. */
  lemma NoTokenNoWrite(s: School, req: Request, env: Env, fault: Fault)
    requires !req.SignInReq?
    ensures Serve(s, None, req, env, fault) == (s, Refuse(200, Envelope.Text("Token required")))
  {
  }

  /** The admin routes change the state only for an admin. */
  lemma AdminRoutesNeedAdmin(s: School, user: ReqUser, req: Request, env: Env, fault: Fault)
    requires Writer(req) == Some("admin")
    ensures Route(s, user, req, env, fault).0 != s ==> user.role == "admin"
  {
    match req
    case RegisterReq(form) =>
      assert Auth.Register(s, user, form, env.hash, fault).0 != s ==> user.role == "admin";
    case ToggleReq(id) =>
      assert Admin.ToggleStatus(s, Some(user), id, fault).0 != s ==> user.role == "admin";
    case PromoteReq(classId) =>
      assert Admin.Promote(s, Some(user), classId, env.today, fault).0 != s ==> user.role == "admin";
    case AdmitReq(form) =>
      assert Admin.AddStudent(s, Some(user), form, fault).0 != s ==> user.role == "admin";
    case AssignFeeReq(eid, total) =>
      assert Admin.AssignFee(s, Some(user), eid, total, env.today, fault).0 != s ==> user.role == "admin";
    case PaymentReq(eid, amount) =>
      assert Admin.RecordPayment(s, Some(user), eid, amount, fault).0 != s ==> user.role == "admin";
  }

  /** The teacher routes change the state only for a teacher. */
  lemma TeacherRoutesNeedTeacher(s: School, user: ReqUser, req: Request, env: Env, fault: Fault)
    requires Writer(req) == Some("teacher")
    ensures Route(s, user, req, env, fault).0 != s ==> user.role == "teacher"
  {
    match req
    case MarkAttendanceReq(date, entries) =>
      assert Teacher.MarkAttendance(s, user, date, entries, fault).0 != s ==> user.role == "teacher";
    case AddMarksReq(form) =>
      assert Teacher.AddMarks(s, user, form, fault).0 != s ==> user.role == "teacher";
  }

  /** Behind the middleware, a handler changes the state only for a caller
      with the role its route demands. */
  lemma RouteWritesNeedTheRole(s: School, user: ReqUser, req: Request, env: Env, fault: Fault)
    requires !req.SignInReq?
    ensures Route(s, user, req, env, fault).0 != s ==> Writer(req).Some? && user.role == Writer(req).value
  {
    if Writer(req) == Some("admin") {
      AdminRoutesNeedAdmin(s, user, req, env, fault);
    } else if Writer(req) == Some("teacher") {
      TeacherRoutesNeedTeacher(s, user, req, env, fault);
    }
  }

  /** A request changes the state only when its token verifies and carries
      the role its route demands; sign-in and the read routes never do. */
  lemma WritesNeedTheRole(s: School, header: Option<string>, req: Request, env: Env, fault: Fault)
    ensures Serve(s, header, req, env, fault).0 != s ==>
              && Writer(req).Some?
              && VerifyToken(header, env.verify).Pass?
              && VerifyToken(header, env.verify).user.role == Writer(req).value
  {
    if !req.SignInReq? && VerifyToken(header, env.verify).Pass? {
      RouteWritesNeedTheRole(s, VerifyToken(header, env.verify).user, req, env, fault);
    }
  }

  /** A student's token changes nothing, whatever the request. */
  lemma StudentsNeverWrite(s: School, header: Option<string>, req: Request, env: Env, fault: Fault)
    requires VerifyToken(header, env.verify).Pass? ==> VerifyToken(header, env.verify).user.role == "student"
    ensures Serve(s, header, req, env, fault).0 == s
  {
    WritesNeedTheRole(s, header, req, env, fault);
  }

  /** Sign-in then an authenticated request: with a JWT oracle that decodes
      what it signs, the token an active login receives lets it through the
      middleware as itself, so an admin's token reaches the admin handlers. */
  lemma SignedInCallerReachesHandler(s: School, creds: Auth.Credentials, req: Request, env: Env, fault: Fault)
    requires !req.SignInReq?
    requires Succeeded(Auth.SignIn(s, creds, env.compare, env.sign, NoFault))
    requires forall p :: env.sign(p) != "" && SpaceFree(env.sign(p))
    requires Auth.Decodes(env.sign, env.verify)
    ensures var u := Auth.FirstActiveUser(s.users, creds.username).value;
            var token := PayloadOf(Serve(s, None, SignInReq(creds), env, NoFault).1).token;
            Serve(s, Some("Bearer " + token), req, env, fault) == Route(s, ReqUser(u.userId, u.role), req, env, fault)
  {
    Auth.SignInTokenAuthenticates(s, creds, env.compare, env.sign, env.verify);
  }
}

=== FILE: student.dfy ===
/** routes/student.js: the student guard and the three read handlers that
    derive values: the current-year enrollment snapshot, the month's
    attendance totals and the fee balance. None of them writes. */
module Student {
  import opened Base
  import opened Envelope
  import opened Schema
  import opened Token
  import opened Tables
  import Admin
  import Teacher

  function StudentOnly(user: ReqUser): (r: Option<Reply>)
    ensures r.None? <==> user.role == "student"
    ensures r.Some? ==> r.value == Refuse(200, Text("Access denied: Student only"))
  {
    RequireRole(user, "student", "Access denied: Student only")
  }

  /** Each read handler runs one query. */
  const QUERY: nat := 0

  // GET /current-enrollment

  /** The enrollment columns the snapshot query selects or filters on; the
      status is not among them. */
  datatype EnrollmentView = EnrollmentView(
    enrollmentId: int,
    masterId: int,
    rollNo: int,
    admissionDate: Date,
    yearId: int,
    classId: int,
    userId: Option<int>)

  function View(e: Enrollment): EnrollmentView
  {
    EnrollmentView(e.enrollmentId, e.masterId, e.rollNo, e.admissionDate, e.yearId, e.classId, e.userId)
  }

  function Views(es: seq<Enrollment>): (vs: seq<EnrollmentView>)
    ensures |vs| == |es|
    ensures forall i :: 0 <= i < |es| ==> vs[i] == View(es[i])
  {
    seq(|es|, i requires 0 <= i < |es| => View(es[i]))
  }

  /** `JOIN academic_years ay ... AND ay.is_active = TRUE` */
  function ActiveYear(years: seq<AcademicYear>, yearId: int): Option<AcademicYear>
  {
    First(years, (y: AcademicYear) => y.yearId == yearId && y.isActive)
  }

  /** `JOIN classes c ON c.class_id = se.class_id` */
  function ClassOf(classes: seq<Class>, classId: int): Option<Class>
  {
    First(classes, (c: Class) => c.classId == classId)
  }

  /** A row of the snapshot query for login `uid`. */
  predicate Current(years: seq<AcademicYear>, classes: seq<Class>, uid: int, v: EnrollmentView)
  {
    v.userId == Some(uid) && ActiveYear(years, v.yearId).Some? && ClassOf(classes, v.classId).Some?
  }

  function SnapshotOf(v: EnrollmentView, c: Class): Payload
  {
    EnrollmentSnapshot(v.enrollmentId, v.masterId, v.rollNo, v.admissionDate, v.yearId, v.classId, c.level)
  }

  /** `data[0]` of the join: the first enrollment in storage order that is
      linked to login `uid`, lies in an active year and has a class. */
  function CurrentRow(es: seq<Enrollment>, years: seq<AcademicYear>, classes: seq<Class>, uid: int)
    : (r: Option<EnrollmentView>)
    ensures r.None? <==> forall i :: 0 <= i < |es| ==> !Current(years, classes, uid, View(es[i]))
    ensures r.Some? ==>
              exists i :: 0 <= i < |es| && r.value == View(es[i])
                && Current(years, classes, uid, r.value)
                && forall j :: 0 <= j < i ==> !Current(years, classes, uid, View(es[j]))
  {
    First(Views(es), (v: EnrollmentView) => Current(years, classes, uid, v))
  }

  /** The caller's row of the snapshot query, if any. */
  function RowFor(s: School, caller: ReqUser): Option<EnrollmentView>
  {
    CurrentRow(s.enrollments, s.years, s.classes, caller.userId)
  }

  /** The snapshot of the caller's current enrollment, or 'No active
      enrollment found'. The caller's own `user_id` selects the rows; the
      enrollment's status plays no part. */
  function CurrentEnrollment(s: School, caller: ReqUser, fault: Fault): (r: Reply)
    ensures StudentOnly(caller).Some? ==> r == StudentOnly(caller).value
    ensures (StudentOnly(caller).None? && FailureAt(fault, QUERY).Some?)
              ==> r == Refuse(200, Thrown(FailureAt(fault, QUERY).value))
    ensures (StudentOnly(caller).None? && FailureAt(fault, QUERY).None? && RowFor(s, caller).None?)
              ==> r == Refuse(200, Text("No active enrollment found"))
    ensures Succeeded(r) <==> StudentOnly(caller).None? && FailureAt(fault, QUERY).None? && RowFor(s, caller).Some?
    ensures Succeeded(r) ==>
              var v := RowFor(s, caller).value;
              && v.userId == Some(caller.userId)
              && ClassOf(s.classes, v.classId).Some?
              && PayloadOf(r) == SnapshotOf(v, ClassOf(s.classes, v.classId).value)
  {
    match StudentOnly(caller)
    case Some(denied) => denied
    case None =>
      match FailureAt(fault, QUERY)
      case Some(e) => Refuse(200, Thrown(e))
      case None =>
        match RowFor(s, caller)
        case None => Refuse(200, Text("No active enrollment found"))
        case Some(v) => Answer(SnapshotOf(v, ClassOf(s.classes, v.classId).value))
  }

  /** Leaving the school does not hide the enrollment: toggling any
      enrollment's status leaves every student's snapshot as it was. */
  lemma CurrentEnrollmentIgnoresStatus(s: School, admin: Option<ReqUser>, id: Option<int>, caller: ReqUser, fault: Fault)
    ensures var s' := Admin.ToggleStatus(s, admin, id, NoFault).0;
            CurrentEnrollment(s', caller, fault) == CurrentEnrollment(s, caller, fault)
  {
    var s' := Admin.ToggleStatus(s, admin, id, NoFault).0;
    assert Views(s'.enrollments) == Views(s.enrollments);
    assert RowFor(s', caller) == RowFor(s, caller);
  }

  /** An enrollment without a login added after the others changes no
      login's snapshot row. */
  lemma LoginlessRowInvisible(es: seq<Enrollment>, e: Enrollment, years: seq<AcademicYear>, classes: seq<Class>,
                              uid: int)
    requires e.userId.None?
    ensures CurrentRow(es + [e], years, classes, uid) == CurrentRow(es, years, classes, uid)
  {
    assert Views(es + [e]) == Views(es) + [View(e)];
    FirstAppend(Views(es), [View(e)], (v: EnrollmentView) => Current(years, classes, uid, v));
  }

  /** Admission creates an enrollment without a login, so it never becomes
      anyone's current enrollment. */
  lemma AdmissionInvisibleToStudents(s: School, admin: Option<ReqUser>, f: Admin.AdmissionForm, fault: Fault,
                                     caller: ReqUser, qfault: Fault)
    ensures var s' := Admin.AddStudent(s, admin, f, fault).0;
            CurrentEnrollment(s', caller, qfault) == CurrentEnrollment(s, caller, qfault)
  {
    var r := Admin.AddStudent(s, admin, f, fault);
    if Succeeded(r.1) {
      var added := r.0.enrollments[|s.enrollments|];
      assert r.0.enrollments == s.enrollments + [added];
      LoginlessRowInvisible(s.enrollments, added, s.years, s.classes, caller.userId);
      assert RowFor(r.0, caller) == RowFor(s, caller);
    }
  }

  // GET /attendance (month-wise)

  /** The query parameters; a missing one is NULL and matches nothing. */
  datatype MonthQuery = MonthQuery(enrollmentId: Option<int>, month: Option<int>, year: Option<int>)

  /** `enrollment_id = ? AND MONTH(attendance_date) = ? AND YEAR(attendance_date) = ?` */
  predicate InMonth(x: AttendanceRecord, q: MonthQuery)
  {
    && q.enrollmentId == Some(x.enrollmentId)
    && q.month == Some(x.date.month)
    && q.year == Some(x.date.year)
  }

  function MonthRecords(rows: seq<AttendanceRecord>, q: MonthQuery): seq<AttendanceRecord>
  {
    Filter(rows, (x: AttendanceRecord) => InMonth(x, q))
  }

  predicate SortedByDate(rs: seq<AttendanceRecord>)
  {
    forall i, j :: 0 <= i < j < |rs| ==> DateLe(rs[i].date, rs[j].date)
  }

  /** Insertion of one record before the first later-dated one. */
  function InsertByDate(x: AttendanceRecord, rs: seq<AttendanceRecord>): (r: seq<AttendanceRecord>)
    ensures multiset(r) == multiset(rs) + multiset{x}
    decreases |rs|
  {
    if |rs| == 0 then [x]
    else if DateLe(x.date, rs[0].date) then [x] + rs
    else
      assert rs == [rs[0]] + rs[1..];
      [rs[0]] + InsertByDate(x, rs[1..])
  }

  /** Every record of `rs` is dated no earlier than `d`. */
  predicate NotBefore(d: Date, rs: seq<AttendanceRecord>)
  {
    forall k :: 0 <= k < |rs| ==> DateLe(d, rs[k].date)
  }

  /** A bound on every record is a bound on any reordering of them. */
  lemma NotBeforePermutation(d: Date, rs: seq<AttendanceRecord>, ts: seq<AttendanceRecord>)
    requires NotBefore(d, rs) && multiset(ts) == multiset(rs)
    ensures NotBefore(d, ts)
  {
    forall k | 0 <= k < |ts| ensures DateLe(d, ts[k].date) {
      assert ts[k] in multiset(rs);
      var m :| 0 <= m < |rs| && rs[m] == ts[k];
    }
  }

  /** A sorted list headed by a record no later than the rest. */
  lemma SortedCons(y: AttendanceRecord, rs: seq<AttendanceRecord>)
    requires SortedByDate(rs) && NotBefore(y.date, rs)
    ensures SortedByDate([y] + rs)
  {
    forall i, j | 0 <= i < j < |[y] + rs| ensures DateLe(([y] + rs)[i].date, ([y] + rs)[j].date) {
      assert ([y] + rs)[j] == rs[j - 1];
      if i > 0 { assert ([y] + rs)[i] == rs[i - 1]; }
    }
  }

  /** Insertion keeps a date-ordered list ordered. */
  lemma {:induction false} InsertKeepsOrder(x: AttendanceRecord, rs: seq<AttendanceRecord>)
    requires SortedByDate(rs)
    ensures SortedByDate(InsertByDate(x, rs))
    decreases |rs|
  {
    if |rs| > 0 {
      assert NotBefore(rs[0].date, rs[1..]) by {
        forall k | 0 <= k < |rs[1..]| ensures DateLe(rs[0].date, rs[1..][k].date) {
          assert rs[1..][k] == rs[k + 1];
        }
      }
      if DateLe(x.date, rs[0].date) {
        assert NotBefore(x.date, rs) by {
          forall k | 0 <= k < |rs| ensures DateLe(x.date, rs[k].date) {
            if k > 0 { assert rs[1..][k - 1] == rs[k]; }
          }
        }
        SortedCons(x, rs);
      } else {
        var rest := InsertByDate(x, rs[1..]);
        assert SortedByDate(rs[1..]) by {
          forall i, j | 0 <= i < j < |rs[1..]| ensures DateLe(rs[1..][i].date, rs[1..][j].date) {
            assert rs[1..][i] == rs[i + 1] && rs[1..][j] == rs[j + 1];
          }
        }
        InsertKeepsOrder(x, rs[1..]);
        NotBeforePermutation(rs[0].date, rs[1..] + [x], rest);
        SortedCons(rs[0], rest);
      }
    }
  }

  /** `ORDER BY attendance_date`: a date-ordered permutation of the rows. */
  function SortByDate(rs: seq<AttendanceRecord>): (r: seq<AttendanceRecord>)
    ensures SortedByDate(r)
    ensures multiset(r) == multiset(rs)
    decreases |rs|
  {
    if |rs| == 0 then []
    else
      assert rs == [rs[0]] + rs[1..];
      InsertKeepsOrder(rs[0], SortByDate(rs[1..]));
      InsertByDate(rs[0], SortByDate(rs[1..]))
  }

  predicate IsPresent(x: AttendanceRecord)
  {
    x.status == "Present"
  }

  /** The number of records whose status is exactly 'Present'. */
  function CountPresent(rs: seq<AttendanceRecord>): nat
    decreases |rs|
  {
    if |rs| == 0 then 0 else (if IsPresent(rs[0]) then 1 else 0) + CountPresent(rs[1..])
  }

  lemma {:induction false} CountPresentBound(rs: seq<AttendanceRecord>)
    ensures CountPresent(rs) <= |rs|
    decreases |rs|
  {
    if |rs| > 0 {
      CountPresentBound(rs[1..]);
    }
  }

  /** `rows.filter(r => r.status === 'Present').length` counts the present records. */
  lemma {:induction false} FilterCountsPresent(rs: seq<AttendanceRecord>)
    ensures |Filter(rs, (x: AttendanceRecord) => IsPresent(x))| == CountPresent(rs)
    decreases |rs|
  {
    if |rs| > 0 {
      FilterCountsPresent(rs[1..]);
    }
  }

  /** The month's records of one enrollment in date order, with totals:
      present counts status 'Present' exactly, absent is everything else. */
  function AttendanceSummary(s: School, caller: ReqUser, q: MonthQuery, fault: Fault): (r: Reply)
    ensures StudentOnly(caller).Some? ==> r == StudentOnly(caller).value
    ensures (StudentOnly(caller).None? && FailureAt(fault, QUERY).Some?)
              ==> r == Refuse(200, Thrown(FailureAt(fault, QUERY).value))
    ensures Succeeded(r) <==> StudentOnly(caller).None? && FailureAt(fault, QUERY).None?
    ensures Succeeded(r) ==>
              && PayloadOf(r).AttendanceReport?
              && var p := PayloadOf(r);
              && SortedByDate(p.records)
              && multiset(p.records) == multiset(MonthRecords(s.attendance, q))
              && p.totalDays == |p.records|
              && p.presentDays == CountPresent(p.records)
              && p.presentDays + p.absentDays == p.totalDays
              && 0 <= p.presentDays <= p.totalDays
  {
    match StudentOnly(caller)
    case Some(denied) => denied
    case None =>
      match FailureAt(fault, QUERY)
      case Some(e) => Refuse(200, Thrown(e))
      case None =>
        var rows := SortByDate(MonthRecords(s.attendance, q));
        var present := |Filter(rows, (x: AttendanceRecord) => IsPresent(x))|;
        FilterCountsPresent(rows);
        CountPresentBound(rows);
        Answer(AttendanceReport(|rows|, present, |rows| - present, rows))
  }

  /** A record the summary reports is one of that enrollment's records in
      that month, and each such record is reported. */
  lemma SummaryRecordsAreTheMonths(s: School, caller: ReqUser, q: MonthQuery, x: AttendanceRecord)
    requires Succeeded(AttendanceSummary(s, caller, q, NoFault))
    ensures x in PayloadOf(AttendanceSummary(s, caller, q, NoFault)).records <==> x in s.attendance && InMonth(x, q)
  {
    var p := PayloadOf(AttendanceSummary(s, caller, q, NoFault));
    assert x in p.records <==> x in multiset(p.records);
    assert x in MonthRecords(s.attendance, q) <==> x in multiset(MonthRecords(s.attendance, q));
  }

  /** Marking then reading: after a teacher marks a day, each submitted
      entry appears in that enrollment's summary for the day's month. */
  lemma MarkedDayIsReported(s: School, teacher: ReqUser, d: Date, entries: seq<Teacher.AttendanceEntry>, k: int,
                            caller: ReqUser)
    requires Succeeded(Teacher.MarkAttendance(s, teacher, Some(d), Some(entries), NoFault).1)
    requires caller.role == "student"
    requires 0 <= k < |entries|
    ensures var s' := Teacher.MarkAttendance(s, teacher, Some(d), Some(entries), NoFault).0;
            var q := MonthQuery(Some(entries[k].enrollmentId), Some(d.month), Some(d.year));
            AttendanceRecord(entries[k].enrollmentId, d, entries[k].status)
              in PayloadOf(AttendanceSummary(s', caller, q, NoFault)).records
  {
    var s' := Teacher.MarkAttendance(s, teacher, Some(d), Some(entries), NoFault).0;
    var q := MonthQuery(Some(entries[k].enrollmentId), Some(d.month), Some(d.year));
    var x := AttendanceRecord(entries[k].enrollmentId, d, entries[k].status);
    var rows := Teacher.AttendanceRows(entries, d);
    assert rows[k] == x;
    assert x in s'.attendance;
    SummaryRecordsAreTheMonths(s', caller, q, x);
  }

  // GET /fees

  /** `IFNULL(SUM(fp.amount_paid), 0)` over the enrollment's payments. */
  function PaidFor(payments: seq<FeePayment>, enrollmentId: int): int
    decreases |payments|
  {
    if |payments| == 0 then 0
    else (if payments[0].enrollmentId == enrollmentId then payments[0].amount else 0)
         + PaidFor(payments[1..], enrollmentId)
  }

  lemma {:induction false} PaidForAppend(payments: seq<FeePayment>, p: FeePayment, enrollmentId: int)
    ensures PaidFor(payments + [p], enrollmentId)
            == PaidFor(payments, enrollmentId) + (if p.enrollmentId == enrollmentId then p.amount else 0)
    decreases |payments|
  {
    if |payments| == 0 {
      assert payments + [p] == [p];
      assert [p][1..] == [];
    } else {
      assert (payments + [p])[1..] == payments[1..] + [p];
      PaidForAppend(payments[1..], p, enrollmentId);
    }
  }

  /** `data[0]` of `... WHERE sfa.enrollment_id = ? GROUP BY sfa.assignment_id`:
      the first assignment of the enrollment; a NULL id matches none. */
  function AssignmentOf(assignments: seq<FeeAssignment>, enrollmentId: Option<int>): Option<FeeAssignment>
  {
    if enrollmentId.None? then None
    else First(assignments, (a: FeeAssignment) => a.enrollmentId == enrollmentId.value)
  }

  /** The balance: due is total minus everything paid for the enrollment,
      and an enrollment without an assignment reads as all zeros. */
  function FeeSummary(s: School, caller: ReqUser, enrollmentId: Option<int>, fault: Fault): (r: Reply)
    ensures StudentOnly(caller).Some? ==> r == StudentOnly(caller).value
    ensures (StudentOnly(caller).None? && FailureAt(fault, QUERY).Some?)
              ==> r == Refuse(200, Thrown(FailureAt(fault, QUERY).value))
    ensures Succeeded(r) <==> StudentOnly(caller).None? && FailureAt(fault, QUERY).None?
    ensures Succeeded(r) ==>
              && PayloadOf(r).FeeReport?
              && PayloadOf(r).dueAmount == PayloadOf(r).totalAmount - PayloadOf(r).paidAmount
              && (AssignmentOf(s.assignments, enrollmentId).None? ==> PayloadOf(r) == FeeReport(0, 0, 0))
              && (AssignmentOf(s.assignments, enrollmentId).Some? ==>
                    && PayloadOf(r).totalAmount == AssignmentOf(s.assignments, enrollmentId).value.total
                    && PayloadOf(r).paidAmount == PaidFor(s.payments, enrollmentId.value))
  {
    match StudentOnly(caller)
    case Some(denied) => denied
    case None =>
      match FailureAt(fault, QUERY)
      case Some(e) => Refuse(200, Thrown(e))
      case None =>
        match AssignmentOf(s.assignments, enrollmentId)
        case None => Answer(FeeReport(0, 0, 0))
        case Some(a) =>
          var paid := PaidFor(s.payments, a.enrollmentId);
          Answer(FeeReport(a.total, paid, a.total - paid))
  }

  /** A payment of `amount` for an assigned enrollment raises paid and
      lowers due by exactly that amount; a payment for another enrollment
      changes nothing. */
  lemma PaymentLowersDue(s: School, caller: ReqUser, enrollmentId: int, p: FeePayment)
    requires caller.role == "student"
    requires AssignmentOf(s.assignments, Some(enrollmentId)).Some?
    ensures var before := PayloadOf(FeeSummary(s, caller, Some(enrollmentId), NoFault));
            var after := PayloadOf(FeeSummary(s.(payments := s.payments + [p]), caller, Some(enrollmentId), NoFault));
            var delta := if p.enrollmentId == enrollmentId then p.amount else 0;
            after.totalAmount == before.totalAmount
            && after.paidAmount == before.paidAmount + delta
            && after.dueAmount == before.dueAmount - delta
  {
    PaidForAppend(s.payments, p, enrollmentId);
  }

  /** Assigning then reading: the first assignment of an enrollment sets the
      total the student sees, and the balance is that total less what was
      already paid. */
  lemma AssignedFeeIsReported(s: School, admin: Option<ReqUser>, enrollmentId: int, total: int, today: Date,
                              caller: ReqUser)
    requires Succeeded(Admin.AssignFee(s, admin, enrollmentId, total, today, NoFault).1)
    requires AssignmentOf(s.assignments, Some(enrollmentId)).None?
    requires caller.role == "student"
    ensures var s' := Admin.AssignFee(s, admin, enrollmentId, total, today, NoFault).0;
            var paid := PaidFor(s.payments, enrollmentId);
            PayloadOf(FeeSummary(s', caller, Some(enrollmentId), NoFault)) == FeeReport(total, paid, total - paid)
  {
    var s' := Admin.AssignFee(s, admin, enrollmentId, total, today, NoFault).0;
    var row := FeeAssignment(s.next.assignment, enrollmentId, total, today);
    FirstAppend(s.assignments, [row], (a: FeeAssignment) => a.enrollmentId == enrollmentId);
  }

  /** Because assignment is a plain insert, assigning a second fee to an
      enrollment adds a row the summary never reads: the balance stays. */
  lemma ReassignmentIsIgnored(s: School, admin: Option<ReqUser>, enrollmentId: int, total: int, today: Date,
                              caller: ReqUser, fault: Fault)
    requires AssignmentOf(s.assignments, Some(enrollmentId)).Some?
    ensures var s' := Admin.AssignFee(s, admin, enrollmentId, total, today, NoFault).0;
            FeeSummary(s', caller, Some(enrollmentId), fault) == FeeSummary(s, caller, Some(enrollmentId), fault)
  {
    var r := Admin.AssignFee(s, admin, enrollmentId, total, today, NoFault);
    if Succeeded(r.1) {
      var row := FeeAssignment(s.next.assignment, enrollmentId, total, today);
      FirstAppend(s.assignments, [row], (a: FeeAssignment) => a.enrollmentId == enrollmentId);
    }
  }

  /** Recording then reading: a payment the admin records for an assigned
      enrollment raises its paid sum and lowers its due by the amount, and
      leaves every other enrollment's balance as it was. */
  lemma RecordedPaymentIsReported(s: School, admin: Option<ReqUser>, enrollmentId: int, amount: int,
                                  caller: ReqUser, other: int)
    requires Succeeded(Admin.RecordPayment(s, admin, enrollmentId, amount, NoFault).1)
    requires AssignmentOf(s.assignments, Some(enrollmentId)).Some?
    requires caller.role == "student"
    ensures var s' := Admin.RecordPayment(s, admin, enrollmentId, amount, NoFault).0;
            var before := PayloadOf(FeeSummary(s, caller, Some(enrollmentId), NoFault));
            var after := PayloadOf(FeeSummary(s', caller, Some(enrollmentId), NoFault));
            after.totalAmount == before.totalAmount
            && after.paidAmount == before.paidAmount + amount
            && after.dueAmount == before.dueAmount - amount
    ensures other != enrollmentId ==>
              var s' := Admin.RecordPayment(s, admin, enrollmentId, amount, NoFault).0;
              FeeSummary(s', caller, Some(other), NoFault) == FeeSummary(s, caller, Some(other), NoFault)
  {
    var p := FeePayment(enrollmentId, amount);
    PaidForAppend(s.payments, p, enrollmentId);
    if other != enrollmentId {
      PaidForAppend(s.payments, p, other);
    }
  }
}

=== FILE: tables.dfy ===
/** Queries over tables kept as sequences in storage order: the first row a
    `SELECT ... LIMIT 1`-style lookup returns, the rows a WHERE clause keeps,
    and the "replace existing records" idiom of the teacher handlers, a
    `DELETE ... WHERE <key> IN (...)` followed by an INSERT of new rows. */
module Tables {
  import opened Base

  /** `rows[0]` of a query whose WHERE clause is `p`, or nothing when no row matches. */
  function First<T(!new)>(rows: seq<T>, p: T -> bool): (r: Option<T>)
    ensures r.None? <==> forall i :: 0 <= i < |rows| ==> !p(rows[i])
    ensures r.Some? ==> p(r.value)
    ensures r.Some? ==> exists i :: 0 <= i < |rows| && rows[i] == r.value && forall j :: 0 <= j < i ==> !p(rows[j])
    decreases |rows|
  {
    if |rows| == 0 then None
    else if p(rows[0]) then Some(rows[0])
    else
      var r := First(rows[1..], p);
      if r.Some? then
        ghost var i :| 0 <= i < |rows[1..]| && rows[1..][i] == r.value && forall j :: 0 <= j < i ==> !p(rows[1..][j]);
        assert rows[i + 1] == r.value;
        assert forall j :: 0 <= j < i + 1 ==> !p(rows[j]) by {
          forall j | 0 <= j < i + 1 ensures !p(rows[j]) {
            if j > 0 { assert rows[j] == rows[1..][j - 1]; }
          }
        }
        r
      else
        assert forall i :: 0 <= i < |rows| ==> !p(rows[i]) by {
          forall i | 0 <= i < |rows| ensures !p(rows[i]) {
            if i > 0 { assert rows[i] == rows[1..][i - 1]; }
          }
        }
        r
  }

  /** A lookup over two blocks of rows finds its match in the first block
      when there is one, and otherwise in the second. */
  lemma {:induction false} FirstAppend<T(!new)>(a: seq<T>, b: seq<T>, p: T -> bool)
    ensures First(a + b, p) == if First(a, p).Some? then First(a, p) else First(b, p)
    decreases |a|
  {
    if |a| == 0 {
      assert a + b == b;
    } else {
      assert (a + b)[0] == a[0];
      assert (a + b)[1..] == a[1..] + b;
      if !p(a[0]) {
        FirstAppend(a[1..], b, p);
      }
    }
  }

  /** The rows a WHERE clause `p` keeps, in storage order. */
  function Filter<T(!new)>(rows: seq<T>, p: T -> bool): (r: seq<T>)
    ensures |r| <= |rows|
    ensures forall x :: x in r <==> x in rows && p(x)
    decreases |rows|
  {
    if |rows| == 0 then []
    else if p(rows[0]) then [rows[0]] + Filter(rows[1..], p)
    else Filter(rows[1..], p)
  }

  /** The rows that survive `DELETE ... WHERE key(row) IN drop`, in order. */
  function Without<T(!new), K>(rows: seq<T>, key: T -> K, drop: set<K>): (r: seq<T>)
    ensures |r| <= |rows|
    ensures forall x :: x in r <==> x in rows && key(x) !in drop
    decreases |rows|
  {
    if |rows| == 0 then []
    else if key(rows[0]) in drop then Without(rows[1..], key, drop)
    else [rows[0]] + Without(rows[1..], key, drop)
  }

  /** Delete the rows whose key is in `drop`, then insert `added` at the end. */
  function Replace<T(!new), K>(rows: seq<T>, key: T -> K, drop: set<K>, added: seq<T>): seq<T>
  {
    Without(rows, key, drop) + added
  }

  lemma {:induction false} WithoutAppend<T(!new), K>(a: seq<T>, b: seq<T>, key: T -> K, drop: set<K>)
    ensures Without(a + b, key, drop) == Without(a, key, drop) + Without(b, key, drop)
    decreases |a|
  {
    if |a| == 0 {
      assert a + b == b;
    } else {
      assert (a + b)[0] == a[0];
      assert (a + b)[1..] == a[1..] + b;
      WithoutAppend(a[1..], b, key, drop);
    }
  }

  /** Deleting twice deletes nothing more. */
  lemma {:induction false} WithoutTwice<T(!new), K>(rows: seq<T>, key: T -> K, drop: set<K>)
    ensures Without(Without(rows, key, drop), key, drop) == Without(rows, key, drop)
    decreases |rows|
  {
    if |rows| > 0 {
      WithoutTwice(rows[1..], key, drop);
      if key(rows[0]) !in drop {
        var tail := Without(rows[1..], key, drop);
        assert ([rows[0]] + tail)[0] == rows[0];
        assert ([rows[0]] + tail)[1..] == tail;
      }
    }
  }

  /** A WHERE clause no row satisfies selects nothing. */
  lemma {:induction false} FilterNone<T(!new)>(rows: seq<T>, p: T -> bool)
    requires forall i :: 0 <= i < |rows| ==> !p(rows[i])
    ensures Filter(rows, p) == []
    decreases |rows|
  {
    if |rows| > 0 {
      FilterNone(rows[1..], p);
    }
  }

  /** A delete that covers every row leaves nothing. */
  lemma {:induction false} WithoutEverything<T(!new), K>(rows: seq<T>, key: T -> K, drop: set<K>)
    requires forall i :: 0 <= i < |rows| ==> key(rows[i]) in drop
    ensures Without(rows, key, drop) == []
    decreases |rows|
  {
    if |rows| > 0 {
      WithoutEverything(rows[1..], key, drop);
    }
  }

  /** Re-running the same delete-then-insert changes nothing, provided every
      added row falls under the delete. */
  lemma ReplaceIdempotent<T(!new), K>(rows: seq<T>, key: T -> K, drop: set<K>, added: seq<T>)
    requires forall i :: 0 <= i < |added| ==> key(added[i]) in drop
    ensures Replace(Replace(rows, key, drop, added), key, drop, added) == Replace(rows, key, drop, added)
  {
    var kept := Without(rows, key, drop);
    WithoutAppend(kept, added, key, drop);
    WithoutTwice(rows, key, drop);
    WithoutEverything(added, key, drop);
    assert kept + added + [] == kept + added;
  }

  /** Rows whose key is not dropped are exactly those of the old table. */
  lemma ReplaceKeepsOthers<T(!new), K>(rows: seq<T>, key: T -> K, drop: set<K>, added: seq<T>, k: K)
    requires k !in drop
    requires forall i :: 0 <= i < |added| ==> key(added[i]) in drop
    ensures forall x :: key(x) == k ==> (x in Replace(rows, key, drop, added) <==> x in rows)
  {
  }
}

=== FILE: teacher.dfy ===
/** routes/teacher.js: the teacher guard, bulk attendance marking and bulk
    marks entry. Both bulk handlers replace earlier records with a DELETE
    followed by an INSERT; the two statements are not one transaction. */
module Teacher {
  import opened Base
  import opened Envelope
  import opened Schema
  import opened Token
  import opened Tables

  function TeacherOnly(user: ReqUser): (r: Option<Reply>)
    ensures r.None? <==> user.role == "teacher"
    ensures r.Some? ==> r.value == Refuse(200, Text("Access denied: Teacher only"))
  {
    RequireRole(user, "teacher", "Access denied: Teacher only")
  }

  // calculateGrade

  /** `(obtained / max) * 100 >= p`, compared exactly; a negative `max`
      flips the inequality, as division by it does. */
  predicate AtLeastPercent(obtained: int, max: int, p: int)
    requires max != 0
  {
    if max > 0 then 100 * obtained >= p * max else 100 * obtained <= p * max
  }

  /** The lowest percentage that earns each grade. */
  function Floor(g: Grade): int
  {
    match g
    case APlus => 90
    case A => 80
    case B => 70
    case C => 60
    case D => 40
    case F => 0
  }

  /** The percentage from which the next better grade starts. */
  function Ceiling(g: Grade): int
    requires g != APlus
  {
    match g
    case A => 90
    case B => 80
    case C => 70
    case D => 60
    case F => 40
  }

  /** Position of a grade from F (0) to A+ (5). */
  function Rank(g: Grade): int
  {
    match g
    case F => 0
    case D => 1
    case C => 2
    case B => 3
    case A => 4
    case APlus => 5
  }

  /** The classifier: the grade whose band [Floor, Ceiling) holds the
      percentage. The handler only calls it with a truthy, hence non-zero,
      maximum. */
  function CalculateGrade(obtained: int, max: int): (g: Grade)
    requires max != 0
    ensures g != F ==> AtLeastPercent(obtained, max, Floor(g))
    ensures g != APlus ==> !AtLeastPercent(obtained, max, Ceiling(g))
  {
    if AtLeastPercent(obtained, max, 90) then APlus
    else if AtLeastPercent(obtained, max, 80) then A
    else if AtLeastPercent(obtained, max, 70) then B
    else if AtLeastPercent(obtained, max, 60) then C
    else if AtLeastPercent(obtained, max, 40) then D
    else F
  }

  /** For a fixed positive maximum, more marks never earn a worse grade. */
  lemma GradeMonotone(o1: int, o2: int, max: int)
    requires max > 0 && o1 <= o2
    ensures Rank(CalculateGrade(o1, max)) <= Rank(CalculateGrade(o2, max))
  {
  }

  /** The bands do not overlap: any grade whose band holds the percentage is
      the one the classifier returns. */
  lemma GradeBandUnique(obtained: int, max: int, g: Grade)
    requires max > 0
    requires g != F ==> AtLeastPercent(obtained, max, Floor(g))
    requires g != APlus ==> !AtLeastPercent(obtained, max, Ceiling(g))
    ensures CalculateGrade(obtained, max) == g
  {
  }

  // POST /attendance/mark

  const DELETE_ATTENDANCE: nat := 0
  const INSERT_ATTENDANCE: nat := 1

  datatype AttendanceEntry = AttendanceEntry(enrollmentId: int, status: string)

  /** The columns the DELETE matches on. */
  function AttendanceSlot(r: AttendanceRecord): (int, Date)
  {
    (r.enrollmentId, r.date)
  }

  /** `attendance_date = ? AND enrollment_id IN (?)` */
  function AttendanceSlots(entries: seq<AttendanceEntry>, d: Date): set<(int, Date)>
  {
    set i | 0 <= i < |entries| :: (entries[i].enrollmentId, d)
  }

  /** One row per listed entry, in list order. */
  function AttendanceRows(entries: seq<AttendanceEntry>, d: Date): (rows: seq<AttendanceRecord>)
    ensures |rows| == |entries|
    ensures forall i :: 0 <= i < |rows| ==>
              && rows[i].enrollmentId == entries[i].enrollmentId && rows[i].date == d
              && rows[i].status == entries[i].status
              && AttendanceSlot(rows[i]) in AttendanceSlots(entries, d)
  {
    seq(|entries|, i requires 0 <= i < |entries| => AttendanceRecord(entries[i].enrollmentId, d, entries[i].status))
  }

  /** A missing date or a missing or empty list is 'Invalid data' with no
      write. Otherwise the date's records of the listed enrollments are
      deleted and one record per entry inserted; when the insert fails the
      deletion stays. */
  function MarkAttendance(s: School, caller: ReqUser, date: Option<Date>, students: Option<seq<AttendanceEntry>>,
                          fault: Fault): (r: (School, Reply))
    ensures TeacherOnly(caller).Some? ==> r == (s, TeacherOnly(caller).value)
    ensures (TeacherOnly(caller).None? && (date.None? || !GivenList(students)))
              ==> r == (s, Refuse(200, Text("Invalid data")))
    ensures r.0 == s.(attendance := r.0.attendance)
    ensures Succeeded(r.1) <==> TeacherOnly(caller).None? && date.Some? && GivenList(students)
                                && FailureAt(fault, DELETE_ATTENDANCE).None? && FailureAt(fault, INSERT_ATTENDANCE).None?
    ensures Succeeded(r.1) ==>
              r.0.attendance == Replace(s.attendance, AttendanceSlot, AttendanceSlots(students.value, date.value),
                                        AttendanceRows(students.value, date.value))
    ensures Succeeded(r.1) ==> PayloadOf(r.1) == Message("Attendance marked successfully")
    ensures (TeacherOnly(caller).None? && date.Some? && GivenList(students) && FailureAt(fault, DELETE_ATTENDANCE).Some?)
              ==> r == (s, Refuse(200, Thrown(FailureAt(fault, DELETE_ATTENDANCE).value)))
    ensures (TeacherOnly(caller).None? && date.Some? && GivenList(students) && FailureAt(fault, INSERT_ATTENDANCE).Some?)
              ==> r.0.attendance == Without(s.attendance, AttendanceSlot, AttendanceSlots(students.value, date.value))
    ensures (TeacherOnly(caller).None? && date.Some? && GivenList(students)
             && FailureAt(fault, DELETE_ATTENDANCE).None? && FailureAt(fault, INSERT_ATTENDANCE).Some?)
              ==> r.1 == Refuse(200, Thrown(FailureAt(fault, INSERT_ATTENDANCE).value))
    ensures !Succeeded(r.1) && FailureAt(fault, INSERT_ATTENDANCE).None? ==> r.0 == s
  {
    match TeacherOnly(caller)
    case Some(denied) => (s, denied)
    case None =>
      if date.None? || !GivenList(students) then (s, Refuse(200, Text("Invalid data")))
      else
        var slots := AttendanceSlots(students.value, date.value);
        match FailureAt(fault, DELETE_ATTENDANCE)
        case Some(e) => (s, Refuse(200, Thrown(e)))
        case None =>
          var kept := Without(s.attendance, AttendanceSlot, slots);
          match FailureAt(fault, INSERT_ATTENDANCE)
          case Some(e) => (s.(attendance := kept), Refuse(200, Thrown(e)))
          case None =>
            (s.(attendance := kept + AttendanceRows(students.value, date.value)),
             Answer(Message("Attendance marked successfully")))
  }

  /** After a successful marking, the records of a listed enrollment on that
      date are exactly the submitted ones, and every other record is as it
      was. */
  lemma MarkAttendanceScope(s: School, caller: ReqUser, d: Date, entries: seq<AttendanceEntry>, x: AttendanceRecord)
    requires Succeeded(MarkAttendance(s, caller, Some(d), Some(entries), NoFault).1)
    ensures var s' := MarkAttendance(s, caller, Some(d), Some(entries), NoFault).0;
            && (AttendanceSlot(x) in AttendanceSlots(entries, d) ==> (x in s'.attendance <==> x in AttendanceRows(entries, d)))
            && (AttendanceSlot(x) !in AttendanceSlots(entries, d) ==> (x in s'.attendance <==> x in s.attendance))
  {
  }

  /** Submitting the same attendance twice leaves the table as one
      submission does. */
  lemma RemarkingIsIdempotent(s: School, caller: ReqUser, d: Date, entries: seq<AttendanceEntry>)
    requires Succeeded(MarkAttendance(s, caller, Some(d), Some(entries), NoFault).1)
    ensures var s1 := MarkAttendance(s, caller, Some(d), Some(entries), NoFault).0;
            MarkAttendance(s1, caller, Some(d), Some(entries), NoFault).0 == s1
  {
    ReplaceIdempotent(s.attendance, AttendanceSlot, AttendanceSlots(entries, d), AttendanceRows(entries, d));
  }

  // POST /marks/add

  const FIND_EXAM: nat := 0
  const DELETE_MARKS: nat := 1
  const INSERT_MARKS: nat := 2

  datatype MarkEntry = MarkEntry(enrollmentId: int, obtained: int)

  datatype MarksForm = MarksForm(subjectId: Option<int>, examName: Option<string>, maxMarks: Option<int>,
                                 marks: Option<seq<MarkEntry>>)

  /** `!subject_id || !exam_name || !max_marks || !marks || !marks.length` is false. */
  predicate MarksValid(f: MarksForm)
  {
    GivenNumber(f.subjectId) && GivenText(f.examName) && GivenNumber(f.maxMarks) && GivenList(f.marks)
  }

  /** `(SELECT academic_year_id FROM subjects WHERE subject_id = ?)`, NULL when absent. */
  function SubjectYear(subjects: seq<Subject>, subjectId: int): Option<int>
  {
    match First(subjects, (sub: Subject) => sub.subjectId == subjectId)
    case None => None
    case Some(sub) => Some(sub.yearId)
  }

  /** `SELECT exam_id FROM exams WHERE exam_name = ? AND academic_year_id = (...)`;
      comparing with NULL matches nothing. */
  function FindExam(exams: seq<Exam>, name: string, yearId: Option<int>): Option<Exam>
  {
    if yearId.None? then None else First(exams, (x: Exam) => x.name == name && x.yearId == yearId.value)
  }

  /** Get or create the exam: an exam of that name in the subject's year is
      reused; otherwise `INSERT ... SELECT` adds one for the subject's year,
      and adds nothing (insert id 0) when the subject does not exist. */
  function ExamFor(s: School, subjectId: int, name: string): (r: (School, int))
    ensures var existing := FindExam(s.exams, name, SubjectYear(s.subjects, subjectId));
            && (existing.Some? ==> r == (s, existing.value.examId))
            && (existing.None? && SubjectYear(s.subjects, subjectId).Some? ==>
                  && r.1 == s.next.exam
                  && r.0 == s.(exams := s.exams + [Exam(s.next.exam, name, SubjectYear(s.subjects, subjectId).value)],
                               next := s.next.(exam := s.next.exam + 1)))
            && (existing.None? && SubjectYear(s.subjects, subjectId).None? ==> r == (s, 0))
  {
    var year := SubjectYear(s.subjects, subjectId);
    match FindExam(s.exams, name, year)
    case Some(x) => (s, x.examId)
    case None =>
      if year.None? then (s, 0)
      else
        var id := s.next.exam;
        (s.(exams := s.exams + [Exam(id, name, year.value)], next := s.next.(exam := id + 1)), id)
  }

  /** The columns the DELETE matches on. */
  function MarkSlot(m: MarkRow): (int, int, int)
  {
    (m.enrollmentId, m.subjectId, m.examId)
  }

  /** `enrollment_id IN (?) AND subject_id = ? AND exam_id = ?` */
  function MarkSlots(entries: seq<MarkEntry>, subjectId: int, examId: int): set<(int, int, int)>
  {
    set i | 0 <= i < |entries| :: (entries[i].enrollmentId, subjectId, examId)
  }

  /** One row per entry, graded against the common maximum. */
  function MarkRows(entries: seq<MarkEntry>, subjectId: int, examId: int, max: int): (rows: seq<MarkRow>)
    requires max != 0
    ensures |rows| == |entries|
    ensures forall i :: 0 <= i < |rows| ==>
              && rows[i].enrollmentId == entries[i].enrollmentId
              && rows[i].subjectId == subjectId && rows[i].examId == examId
              && MarkSlot(rows[i]) in MarkSlots(entries, subjectId, examId)
              && rows[i].obtained == entries[i].obtained && rows[i].maxMarks == max
              && rows[i].grade == CalculateGrade(entries[i].obtained, max)
  {
    seq(|entries|, i requires 0 <= i < |entries| =>
      MarkRow(entries[i].enrollmentId, subjectId, examId, entries[i].obtained, max,
              CalculateGrade(entries[i].obtained, max)))
  }

  /** Validation, then get-or-create of the exam, then the replacement of
      the listed enrollments' marks for that subject and exam. */
  function AddMarks(s: School, caller: ReqUser, f: MarksForm, fault: Fault): (r: (School, Reply))
    ensures TeacherOnly(caller).Some? ==> r == (s, TeacherOnly(caller).value)
    ensures TeacherOnly(caller).None? && !MarksValid(f) ==> r == (s, Refuse(200, Text("Invalid data")))
    ensures r.0 == s.(exams := r.0.exams, marks := r.0.marks, next := r.0.next)
    ensures (TeacherOnly(caller).None? && MarksValid(f) && FailureAt(fault, FIND_EXAM).Some?)
              ==> r == (s, Refuse(200, Thrown(FailureAt(fault, FIND_EXAM).value)))
    // past the exam step every outcome keeps the exam found or created and
    // its counters; a failed DELETE writes nothing more, a failed INSERT
    // keeps the deletion
    ensures (TeacherOnly(caller).None? && MarksValid(f) && FailureAt(fault, FIND_EXAM).None?) ==>
              var ex := ExamFor(s, f.subjectId.value, f.examName.value);
              var slots := MarkSlots(f.marks.value, f.subjectId.value, ex.1);
              && r.0.exams == ex.0.exams && r.0.next == ex.0.next
              && (FailureAt(fault, DELETE_MARKS).Some? ==>
                    r == (ex.0, Refuse(200, Thrown(FailureAt(fault, DELETE_MARKS).value))))
              && (FailureAt(fault, DELETE_MARKS).None? && FailureAt(fault, INSERT_MARKS).Some? ==>
                    r == (ex.0.(marks := Without(ex.0.marks, MarkSlot, slots)),
                          Refuse(200, Thrown(FailureAt(fault, INSERT_MARKS).value))))
    ensures Succeeded(r.1) <==> TeacherOnly(caller).None? && MarksValid(f) && FailureAt(fault, FIND_EXAM).None?
                                && FailureAt(fault, DELETE_MARKS).None? && FailureAt(fault, INSERT_MARKS).None?
    ensures Succeeded(r.1) ==>
              var ex := ExamFor(s, f.subjectId.value, f.examName.value);
              && PayloadOf(r.1) == Message("Marks added successfully")
              && r.0.exams == ex.0.exams
              && r.0.marks == Replace(s.marks, MarkSlot, MarkSlots(f.marks.value, f.subjectId.value, ex.1),
                                      MarkRows(f.marks.value, f.subjectId.value, ex.1, f.maxMarks.value))
  {
    match TeacherOnly(caller)
    case Some(denied) => (s, denied)
    case None =>
      if !MarksValid(f) then (s, Refuse(200, Text("Invalid data")))
      else match FailureAt(fault, FIND_EXAM)
        case Some(e) => (s, Refuse(200, Thrown(e)))
        case None =>
          var (s1, examId) := ExamFor(s, f.subjectId.value, f.examName.value);
          var entries := f.marks.value;
          var slots := MarkSlots(entries, f.subjectId.value, examId);
          match FailureAt(fault, DELETE_MARKS)
          case Some(e) => (s1, Refuse(200, Thrown(e)))
          case None =>
            var kept := Without(s1.marks, MarkSlot, slots);
            match FailureAt(fault, INSERT_MARKS)
            case Some(e) => (s1.(marks := kept), Refuse(200, Thrown(e)))
            case None =>
              (s1.(marks := kept + MarkRows(entries, f.subjectId.value, examId, f.maxMarks.value)),
               Answer(Message("Marks added successfully")))
  }

  /** A second call for the same exam name reuses the exam the first found
      or created, so re-entering the same marks changes nothing. */
  lemma ReenteringMarksIsIdempotent(s: School, caller: ReqUser, f: MarksForm)
    requires Succeeded(AddMarks(s, caller, f, NoFault).1)
    ensures var s1 := AddMarks(s, caller, f, NoFault).0;
            AddMarks(s1, caller, f, NoFault).0 == s1
  {
    var sid := f.subjectId.value;
    var name := f.examName.value;
    var ex := ExamFor(s, sid, name);
    var s1 := AddMarks(s, caller, f, NoFault).0;
    assert s1.subjects == s.subjects;
    var year := SubjectYear(s.subjects, sid);
    var ex2 := ExamFor(s1, sid, name);
    if FindExam(s.exams, name, year).None? && year.Some? {
      var created := Exam(s.next.exam, name, year.value);
      assert s1.exams == s.exams + [created];
      assert s1.exams[|s.exams|] == created;
      assert FindExam(s1.exams, name, year) == Some(created);
    }
    assert ex2 == (s1, ex.1);
    ReplaceIdempotent(s.marks, MarkSlot, MarkSlots(f.marks.value, sid, ex.1),
                      MarkRows(f.marks.value, sid, ex.1, f.maxMarks.value));
  }
}

=== FILE: token.dfy ===
/** The bearer-token middleware of routes/verifyToken.js and the role guard
    every route file repeats. JWT verification is an oracle `verify` that
    answers the decoded claims of a good token and nothing for a bad one. */
module Token {
  import opened Base
  import opened Envelope
  import opened Schema

  /** `req.user` as the middleware populates it. */
  datatype ReqUser = ReqUser(userId: int, role: string)

  /** The decoded JWT: the signed payload plus the registered claims jwt adds. */
  datatype Claims = Claims(userId: int, role: string, issuedAt: int, expiresAt: int)

  /** A middleware or guard either lets the request through or answers it. */
  datatype Gate = Pass(user: ReqUser) | Halt(reply: Reply)

  /** JavaScript `s.split(' ')`: the maximal space-free runs, with an empty
      field between two adjacent spaces and at either end. */
  function Split(s: string): (parts: seq<string>)
    ensures |parts| >= 1
    ensures forall i :: 0 <= i < |parts| ==> ' ' !in parts[i]
    decreases |s|
  {
    if |s| == 0 then [""]
    else
      var rest := Split(s[1..]);
      if s[0] == ' ' then [""] + rest
      else [[s[0]] + rest[0]] + rest[1..]
  }

  /** `parts.join(' ')`, the inverse of `Split`. */
  function Join(parts: seq<string>): string
    requires |parts| >= 1
    decreases |parts|
  {
    if |parts| == 1 then parts[0] else parts[0] + " " + Join(parts[1..])
  }

  predicate SpaceFree(w: string)
  {
    ' ' !in w
  }

  /** Splitting loses nothing: joining the fields with single spaces gives the header back. */
  lemma {:induction false} JoinSplit(s: string)
    ensures Join(Split(s)) == s
    decreases |s|
  {
    if |s| > 0 {
      var rest := Split(s[1..]);
      JoinSplit(s[1..]);
      if s[0] == ' ' {
        assert ([""] + rest)[1..] == rest;
      } else {
        var parts := [[s[0]] + rest[0]] + rest[1..];
        assert parts[1..] == rest[1..];
        if |rest| == 1 {
          assert s == [s[0]] + s[1..];
        } else {
          assert Join(rest) == rest[0] + " " + Join(rest[1..]);
          assert s == [s[0]] + s[1..];
        }
      }
    }
  }

  /** A space-free word at the front of a string glues onto the first field. */
  lemma {:induction false} SplitWordPrefix(w: string, tail: string)
    requires SpaceFree(w)
    ensures Split(w + tail) == [w + Split(tail)[0]] + Split(tail)[1..]
    decreases |w|
  {
    if |w| == 0 {
      assert w + tail == tail;
      assert w + Split(tail)[0] == Split(tail)[0];
      assert [Split(tail)[0]] + Split(tail)[1..] == Split(tail);
    } else {
      var w' := w[1..];
      assert (w + tail)[0] == w[0];
      assert (w + tail)[1..] == w' + tail;
      assert w[0] != ' ' by { assert w[0] in w; }
      assert SpaceFree(w') by {
        forall i | 0 <= i < |w'| ensures w'[i] != ' ' {
          assert w'[i] == w[i + 1];
          assert w[i + 1] in w;
        }
      }
      SplitWordPrefix(w', tail);
      assert [w[0]] + (w' + Split(tail)[0]) == w + Split(tail)[0];
    }
  }

  /** Fields without spaces survive a join followed by a split. */
  lemma {:induction false} SplitJoin(parts: seq<string>)
    requires |parts| >= 1
    requires forall i :: 0 <= i < |parts| ==> SpaceFree(parts[i])
    ensures Split(Join(parts)) == parts
    decreases |parts|
  {
    if |parts| == 1 {
      SplitWordPrefix(parts[0], "");
      assert parts[0] + "" == parts[0];
    } else {
      var tail := Join(parts[1..]);
      SplitJoin(parts[1..]);
      assert parts[0] + " " + tail == parts[0] + (" " + tail);
      SplitWordPrefix(parts[0], " " + tail);
      assert (" " + tail)[1..] == tail;
      assert Split(" " + tail) == [""] + parts[1..];
      assert Split(" " + tail)[0] == "" && Split(" " + tail)[1..] == parts[1..];
      assert parts[0] + "" == parts[0];
      assert Join(parts) == parts[0] + (" " + tail);
      assert parts == [parts[0]] + parts[1..];
    }
  }

  /** `authHeader.split(' ')[1]`, with `undefined` as None. */
  function SecondField(header: string): (t: Option<string>)
    ensures t.Some? <==> |Split(header)| >= 2
    ensures t.Some? ==> SpaceFree(t.value)
  {
    var parts := Split(header);
    if |parts| >= 2 then Some(parts[1]) else None
  }

  /** The middleware. A missing or empty header, a header with no second
      field or an empty one, and a token the oracle rejects each answer an
      error without reaching the route; otherwise `req.user` is the pair
      `{user_id, role}` of the claims and the route runs. */
  function VerifyToken(header: Option<string>, verify: string -> Option<Claims>): (g: Gate)
    ensures !GivenText(header) ==> g == Halt(Refuse(200, Text("Token required")))
    ensures (GivenText(header) && !GivenText(SecondField(header.value)))
              ==> g == Halt(Refuse(200, Text("Invalid token format")))
    ensures (GivenText(header) && GivenText(SecondField(header.value)) && verify(SecondField(header.value).value).None?)
              ==> g == Halt(Refuse(200, Text("Invalid or expired token")))
    ensures g.Pass? <==> GivenText(header) && GivenText(SecondField(header.value))
                         && verify(SecondField(header.value).value).Some?
    ensures g.Pass? ==> var c := verify(SecondField(header.value).value).value;
                        g.user.userId == c.userId && g.user.role == c.role
  {
    if !GivenText(header) then Halt(Refuse(200, Text("Token required")))
    else
      var token := SecondField(header.value);
      if !GivenText(token) then Halt(Refuse(200, Text("Invalid token format")))
      else match verify(token.value)
        case None => Halt(Refuse(200, Text("Invalid or expired token")))
        case Some(c) => Pass(ReqUser(c.userId, c.role))
  }

  /** The first word of the header is never compared with "Bearer": any
      space-free word in its place gives the same outcome. */
  lemma SchemeWordIgnored(w: string, t: string, verify: string -> Option<Claims>)
    requires SpaceFree(w) && SpaceFree(t)
    ensures VerifyToken(Some(w + " " + t), verify) == VerifyToken(Some("Bearer " + t), verify)
  {
    SplitJoin([w, t]);
    SplitJoin(["Bearer", t]);
    assert Join([w, t]) == w + " " + t;
    assert Join(["Bearer", t]) == "Bearer " + t;
  }

  /** A well-formed "Bearer <token>" header with a token the oracle accepts
      populates `req.user` from that token's claims and nothing else. */
  lemma BearerHeaderPasses(t: string, verify: string -> Option<Claims>)
    requires t != "" && SpaceFree(t)
    requires verify(t).Some?
    ensures VerifyToken(Some("Bearer " + t), verify) == Pass(ReqUser(verify(t).value.userId, verify(t).value.role))
  {
    SplitJoin(["Bearer", t]);
    assert Join(["Bearer", t]) == "Bearer " + t;
  }

  /** "Bearer" alone has no second field. */
  lemma SchemeAloneRejected(verify: string -> Option<Claims>)
    ensures VerifyToken(Some("Bearer"), verify) == Halt(Refuse(200, Text("Invalid token format")))
  {
    SplitJoin(["Bearer"]);
  }

  /** With two spaces after the scheme word the second field is empty,
      whatever follows. */
  lemma DoubleSpaceRejected(x: string, verify: string -> Option<Claims>)
    requires SpaceFree(x)
    ensures VerifyToken(Some("Bearer  " + x), verify) == Halt(Refuse(200, Text("Invalid token format")))
  {
    SplitJoin(["Bearer", "", x]);
    assert ["Bearer", "", x][1..] == ["", x];
    assert ["", x][1..] == [x];
    assert Join(["", x]) == " " + x;
    assert Join(["Bearer", "", x]) == "Bearer  " + x;
    assert Split("Bearer  " + x)[1] == "";
  }

  /** The guard of the teacher, student and registration routes: any role
      other than `role` is answered with `denial` (HTTP 200) and stops. */
  function RequireRole(user: ReqUser, role: string, denial: string): (r: Option<Reply>)
    requires denial != ""
    ensures r.None? <==> user.role == role
    ensures r.Some? ==> r.value == Refuse(200, Text(denial))
  {
    if user.role != role then Some(Refuse(200, Text(denial))) else None
  }
}
